=== FILE: README.md ===
# Verified model of the silex-feature-demo core

silex-feature-demo is a single-page demo. A user picks two or three
jurisdictions (Switzerland, the EU, the UK) and types a legal question. The
page then returns a canned comparison, chosen from a fixed table by keyword
matching, and reveals its analysis word by word. This project models the
deterministic logic behind that flow in Dafny and proves what the code
promises about it:

- `MockAiResponses` (mock_ai_responses.dfy): the keyword matcher
  `findBestMatch` and the response table. The table is modelled by its keys,
  its list lengths and the jurisdictions its sources cite. The matcher is
  also restated as an ordered rule list with first-match semantics, and the
  two are proved equal.
- `Utils` (utils.dfy): the word chunking of `streamText` without its delays,
  `truncate`, and the colour and badge tables.
- `ComparisonResults` (comparison_results.dfy): the reveal effect as a state
  machine. Its events are start, deliver-next-chunk, cancel and re-render.
  It comes with an invariant that every event keeps, and with a loop method
  that replays one run.
- `Page` (page.dfy): the page state, `handleSearch` split into its guards,
  its pre-delay updates and its result assembly, the selection toggle, and
  the four example queries.
- `JurisdictionSelector` (jurisdiction_selector.dfy): the selected and
  disabled predicates, the click guard and the rendered buttons.
- `QueryInput` (query_input.dfy): the submit guard, the disabled condition
  of the submit button and the two example buttons.
- `SourceHelpers` (source_helpers.dfy): `getSourceUrl` with its fallback
  links, `getLegalSourcesByJurisdiction` and `formatReference`.
- `MockLegalData` (mock_legal_data.dfy): the jurisdiction and legal-source
  tables, the jurisdiction filter and the case-insensitive search.
- `Types`, `Text` and `Seqs` are support modules:
  - `Types` holds the records of src/types/index.ts;
  - `Text` holds the JavaScript string built-ins the code uses (`toLowerCase`,
    `includes`, `trim`, `split`, `join`, global `replace`), for ASCII only;
  - `Seqs` holds `filter`, `map` and `find`.

The generated id and the two clock readings of a result (`Date.now()` and
`new Date()`) are parameters of the result assembly. Times are integers.

Three behaviours of the code are easy to get wrong, and the model keeps
them as written:

- **Streamed text.** The chunks of `streamText` concatenate to the text plus
  one trailing space, not to the text itself. A finished reveal therefore
  shows `analysis + " "` (`Utils.StreamText`, `ComparisonResults.RevealCompletes`).
- **Rejected queries.** A query rejected by `handleSearch` only sets the
  error message. The previous result stays on the page (`Page.BeginSearch`).
- **"Switzerland" is not "swiss".** The query "Compare GDPR breach
  notification in Switzerland" does not pick the GDPR-Swiss topic:
  "switzerland" does not contain the substring "swiss", so the GDPR-Swiss
  rule does not hold. The breach-notification rule decides instead
  (`Page.SwitzerlandIsNotSwiss`).

## Model

| member | source | states |
|---|---|---|
| MockAiResponses.FindBestMatch | src/lib/mock-ai-responses.ts:226-243 | the matcher is total and always answers one of the five topic keys |
| MockAiResponses.TableKeys | src/lib/mock-ai-responses.ts:14-220 | the keys of the response table are exactly the five topic keys, so every key the matcher answers has an entry |
| MockAiResponses.GetComparisonResponse | src/lib/mock-ai-responses.ts:222-224 | the lookup never fails: a key of the table gives its own entry, and any other key gives the default entry |
| MockAiResponses.FirstMatch | src/lib/mock-ai-responses.ts:229-242 | reference semantics of an ordered rule list: the answer is the fallback or the key of one of the rules |
| MockAiResponses.FirstMatchIsEarliest | src/lib/mock-ai-responses.ts:229-240 | the first rule whose condition holds decides, whatever later rules say |
| MockAiResponses.FirstMatchFallback | src/lib/mock-ai-responses.ts:242 | when no rule holds, the fallback is the answer |
| MockAiResponses.FindBestMatchFollowsRules | src/lib/mock-ai-responses.ts:226-243 | the matcher equals first-match over the rules gdpr+swiss, breach+notification, transfer or cross-border, contract+(french or france), in that order, applied to the lowered query |
| MockAiResponses.RuleMeanings | src/lib/mock-ai-responses.ts:229-240 | each rule datum holds exactly when the substring test written in the matcher holds |
| MockAiResponses.RulePriority | src/lib/mock-ai-responses.ts:229-240 | rule i decides whenever it holds and no earlier rule holds |
| MockAiResponses.DefaultIffNoRule | src/lib/mock-ai-responses.ts:242 | the default topic is chosen if and only if no rule holds |
| MockAiResponses.FirstHolding | src/lib/mock-ai-responses.ts:229-240 | if some rule holds, there is a first rule that holds |
| MockAiResponses.MatchIgnoresCase | src/lib/mock-ai-responses.ts:227 | a query, its lowered form and its upper-cased form pick the same topic |
| MockAiResponses.GdprSwissOutranksBreach | src/lib/mock-ai-responses.ts:229-234 | a query holding gdpr, swiss, breach and notification picks the GDPR-Swiss topic |
| MockAiResponses.NoKeywordMeansDefault | src/lib/mock-ai-responses.ts:229-242 | a query without gdpr, breach, transfer, cross-border and contract picks the default topic |
| MockAiResponses.EmptyQueryIsDefault | src/lib/mock-ai-responses.ts:242 | the empty query picks the default topic |
| MockAiResponses.MatchedTopicHasEntry | src/lib/mock-ai-responses.ts:222-243 | the answer to a matched topic is that topic's own table entry, never the fallback |
| MockAiResponses.TopicalEntriesShape | src/lib/mock-ai-responses.ts:16-204 | list lengths of the four topical entries, and the jurisdictions their sources cite, in order |
| MockAiResponses.DefaultEntryShape | src/lib/mock-ai-responses.ts:205-219 | the default entry has one key difference, one similarity and no sources |
| MockAiResponses.NoEntryCitesUK | src/lib/mock-ai-responses.ts:43-63 | no entry the lookup can return cites a UK provision |
| MockAiResponses.GdprSwissEntry | src/lib/mock-ai-responses.ts:16-34 | the GDPR-Swiss key yields its own entry, which has five key differences |
| MockAiResponses.GdprSwissDifferences | src/lib/mock-ai-responses.ts:28-34 | five key differences; the first contrasts the GDPR's six legal bases with the FADP's principles-based approach |
| Utils.StreamText | src/lib/utils.ts:9-18 | one chunk more than the text has spaces, so even "" gives one chunk; the chunks concatenate to the text plus one space |
| Utils.StreamTextChunkShape | src/lib/utils.ts:10-13 | every chunk ends in a space and holds no other, so only the space character separates chunks |
| Utils.StreamTextWithoutSpaces | src/lib/utils.ts:10-13 | a text without the space character is one chunk, whatever other whitespace it holds |
| Utils.StreamTextOfWords | src/lib/utils.ts:10-13 | the chunks of space-joined words are those words, each followed by one space, in order |
| Utils.ChunksConcat | src/lib/utils.ts:12-13 | appending a space to every piece and concatenating gives the space-joined pieces plus one space |
| Utils.Truncate | src/lib/utils.ts:45-48 | a text within the limit is returned unchanged; a longer one ends in "..." and has at most maxLength + 3 characters |
| Utils.TruncatedBody | src/lib/utils.ts:47 | what precedes the ellipsis is one contiguous piece of the first maxLength characters, with only whitespace removed around it, and with no space at either end |
| Utils.TruncateNegativeLength | src/lib/utils.ts:45-48 | a negative limit counts from the end of the text, as `slice` does: the ellipsis follows the trimmed prefix that stops `-maxLength` characters before the end, or follows nothing when the text is shorter than that |
| Utils.NegativeLengthBody | src/lib/utils.ts:47 | with `-maxLength` at most the text's length, the ellipsis follows a trimmed piece of the first `|text| + maxLength` characters, with only whitespace cut on either side |
| Utils.NegativeLengthEmpty | src/lib/utils.ts:47 | with `-maxLength` beyond the text's length, `slice` keeps nothing and the result is "..." |
| Utils.JurisdictionColor | src/lib/utils.ts:56-63 | each jurisdiction has a seven-character `#rrggbb` colour: '#' then six upper-case hexadecimal digits |
| Utils.JurisdictionBadgeClasses | src/lib/utils.ts:66-73 | a background class first, then a text class and a border class |
| Utils.BadgeClasses | src/lib/utils.ts:68-72 | the three classes of one colour family: background, text, border |
| Utils.ColoursDistinct | src/lib/utils.ts:56-73 | different jurisdictions get different colours and different badge classes |
| ComparisonResults.Start | src/components/comparison-results.tsx:18-24 | a new run clears the shown text, turns streaming on, and waits for the first chunk of `streamText(analysis)` |
| ComparisonResults.Cancel | src/components/comparison-results.tsx:38-40 | the cleanup only sets the cancelled flag: analysis, view, chunks, count received and ended flag are kept |
| ComparisonResults.Deliver | src/components/comparison-results.tsx:26-33 | an uncancelled run appends the next chunk; a cancelled run drops the chunk it receives and ends; an exhausted generator ends the run; streaming turns off only when an uncancelled run reaches its end |
| ComparisonResults.Rerender | src/components/comparison-results.tsx:41 | the effect re-runs only when the analysis changes |
| ComparisonResults.StartValid | src/components/comparison-results.tsx:17-41 | a new run satisfies the invariant: shown text = the chunks received so far, and streaming is off only after a finished, uncancelled run |
| ComparisonResults.CancelValid | src/components/comparison-results.tsx:38-40 | the cleanup keeps the invariant |
| ComparisonResults.DeliverValid | src/components/comparison-results.tsx:26-33 | a delivery keeps the invariant |
| ComparisonResults.RerenderValid | src/components/comparison-results.tsx:41 | a re-render keeps the invariant |
| ComparisonResults.UninterruptedPrefix | src/components/comparison-results.tsx:24-29 | after k uninterrupted deliveries, the view shows the first k chunks in generator order and is still streaming |
| ComparisonResults.UninterruptedRun | src/components/comparison-results.tsx:26-29 | the same for any list of chunks |
| ComparisonResults.DeliveriesLast | src/components/comparison-results.tsx:26-29 | chunks are received one after the other |
| ComparisonResults.RevealCompletes | src/components/comparison-results.tsx:24-33 | an uncancelled run ends with the analysis plus one space shown and streaming off |
| ComparisonResults.RunCompletes | src/components/comparison-results.tsx:26-33 | the same for any list of chunks |
| ComparisonResults.CancelledFreezes | src/components/comparison-results.tsx:27 | once cancelled, no delivery changes the view |
| ComparisonResults.CancelAfter | src/components/comparison-results.tsx:27-33 | a run cancelled after k chunks keeps showing exactly those k chunks, and streaming stays on |
| ComparisonResults.RevealLoop | src/components/comparison-results.tsx:20-34 | one pass of the loop ends with the chunks before the cancellation point shown, or with the whole analysis plus one space and streaming off |
| ComparisonResults.RevealChunks | src/components/comparison-results.tsx:26-33 | the same loop over any list of chunks |
| Page.Validate | src/app/page.tsx:19-27 | a blank query is reported first; a non-blank query with fewer than two codes gets the jurisdiction error; otherwise the query is accepted |
| Page.BeginSearch | src/app/page.tsx:18-31 | a rejected query only sets the error; an accepted one clears the error and the result and turns loading on |
| Page.Assemble | src/app/page.tsx:38-51 | the result is the table entry of the matched topic, with the untrimmed query, the selection, the given id and times, and streamingComplete false |
| Page.FinishSearch | src/app/page.tsx:53-58 | the assembled result is stored and loading ends |
| Page.HandleSearch | src/app/page.tsx:18-60 | the full case split of a search: the two error cases leave everything but the error unchanged; an accepted query yields the assembled result |
| Page.EnabledSubmitIsAccepted | src/app/page.tsx:18-27 | whatever the enabled submit button sends passes the page's guards |
| Page.Toggle | src/app/page.tsx:62-72 | only the toggled code changes membership; it is in the result exactly when it was absent or at most two codes were selected |
| Page.ToggleFloor | src/app/page.tsx:66 | a selected code is not removed when only two are selected |
| Page.ToggleRemoves | src/app/page.tsx:67 | with more than two selected, exactly that code is removed and the others keep their order |
| Page.ToggleAppends | src/app/page.tsx:69 | an unselected code is appended after the codes already selected, which keep their order, without a duplicate |
| Page.ToggleKeepsValid | src/app/page.tsx:62-72 | the toggle keeps the selection at two or three codes, none twice |
| Page.CutKeepsDistinct | src/app/page.tsx:67 | removing one element keeps a selection free of repeats |
| Page.Click | src/components/jurisdiction-selector.tsx:36 | a click on a disabled button changes nothing; any other click toggles |
| Page.Clicks | src/app/page.tsx:62-72 | after a series of clicks, a code whose button was never clicked is selected exactly when it was before |
| Page.ClicksKeepValid | src/app/page.tsx:62-72 | any sequence of clicks keeps a valid selection valid |
| Page.ReachableSelections | src/app/page.tsx:13 | from the initial [CH, EU], every reachable selection has two or three distinct codes, so the jurisdiction error never appears |
| Page.ExampleTopics | src/app/page.tsx:159-162 | the four example queries pick four distinct topics, none of them the default |
| Page.GdprScenario | src/app/page.tsx:13-60 | searching the first example on the initial page gives the GDPR-Swiss entry for [CH, EU], with five key differences and no error |
| Page.SwitzerlandIsNotSwiss | src/lib/mock-ai-responses.ts:229-234 | "Compare GDPR breach notification in Switzerland" picks the breach-notification topic |
| JurisdictionSelector.OnClick | src/components/jurisdiction-selector.tsx:36 | a click is forwarded to the toggle unless the code is unselected and three are already selected |
| JurisdictionSelector.Buttons | src/components/jurisdiction-selector.tsx:29-37 | one button per table entry, in table order; selected exactly when its code is selected; disabled exactly when it is unselected and three are selected |
| JurisdictionSelector.ButtonOrder | src/components/jurisdiction-selector.tsx:29 | the buttons are CH, EU and UK, in that order |
| JurisdictionSelector.SelectedIsForwarded | src/components/jurisdiction-selector.tsx:31-36 | a selected code is never disabled, so a removal always reaches the toggle |
| JurisdictionSelector.LongSelectionHoldsAll | src/components/jurisdiction-selector.tsx:31 | a selection of three distinct codes holds every code |
| JurisdictionSelector.DistinctBounds | src/components/jurisdiction-selector.tsx:31 | a selection without repeats has at most three codes, and at most two when some code is missing |
| JurisdictionSelector.NeverDisabled | src/components/jurisdiction-selector.tsx:31-36 | for a selection without repeats no button is disabled, and every click is forwarded |
| QueryInput.HandleSubmit | src/components/query-input.tsx:16-21 | the query is sent exactly when it is not blank and no search runs, and it is sent untrimmed |
| QueryInput.SubmitDisabled | src/components/query-input.tsx:85 | the button is disabled exactly while loading, for a blank query, or with fewer than two codes selected |
| QueryInput.EnabledSubmitSends | src/components/query-input.tsx:16-21 | an enabled submit button always sends the query |
| QueryInput.ExampleButtons | src/components/query-input.tsx:23-27 | the buttons show the first two of the three example queries |
| QueryInput.ClickExample | src/components/query-input.tsx:64-69 | a click while loading keeps the query; otherwise button `idx` sets the query to example `idx`, one of the first two, which the form then accepts |
| QueryInput.ExampleTopics | src/components/query-input.tsx:23-27 | the three example queries pick the GDPR-Swiss, breach-notification and cross-border topics |
| SourceHelpers.FallbackUrl | src/lib/source-helpers.ts:15-21 | every jurisdiction has a non-empty fallback link |
| SourceHelpers.SourceUrl | src/lib/source-helpers.ts:4-22 | the url of the first record the citation names, unless that url is empty; otherwise the jurisdiction's fallback; never empty |
| SourceHelpers.GetSourceUrl | src/lib/source-helpers.ts:4-22 | over the legal-source table the link is never empty: a cited record supplies its own url, and a citation no record names gets the jurisdiction's fallback |
| SourceHelpers.FirstCiteIsFound | src/lib/source-helpers.ts:6-8 | the search finds the first record the citation names |
| SourceHelpers.ListedReferenceResolves | src/lib/source-helpers.ts:4-13 | every record's own citation resolves to that record's url |
| SourceHelpers.OnlyOwnCitation | src/lib/mock-legal-data.ts:24-84 | no other record of the table is named by a record's own citation |
| SourceHelpers.UnlistedSwissReference | src/lib/source-helpers.ts:15-21 | (CH, "SR 220, Art. 1") has no record and resolves to the Swiss portal's home page |
| SourceHelpers.GetLegalSourcesByJurisdiction | src/lib/source-helpers.ts:24-26 | the same filter as the one beside the table, so it has the same contract |
| SourceHelpers.FormatReference | src/lib/source-helpers.ts:28-31 | formatting neither adds nor loses commas, leaves nothing to trim, and only trims a reference without commas |
| SourceHelpers.FormatReferenceDoublesSpace | src/lib/source-helpers.ts:30 | an existing ", " followed by more text comes out as ",  " |
| SourceHelpers.ReplaceAroundSpacedComma | src/lib/source-helpers.ts:30 | re-spacing turns ", " into ",  " and works on each side of it independently |
| SourceHelpers.NonBlankSurvives | src/lib/source-helpers.ts:30 | re-spacing keeps a non-space character of a text that has one |
| MockLegalData.JurisdictionTable | src/lib/mock-legal-data.ts:18-22 | the table lists CH, EU and UK, once each and in that order, with the colours of the colour table |
| MockLegalData.ReferenceLengths | src/lib/mock-legal-data.ts:24-84 | six records, two per jurisdiction, with their reference lengths and non-empty urls |
| MockLegalData.ByJurisdiction | src/lib/mock-legal-data.ts:86-88 | the result holds only records of the jurisdiction, taken from the table, and omits none of them |
| MockLegalData.GetLegalSourcesByJurisdiction | src/lib/mock-legal-data.ts:86-88 | the same over the legal-source table |
| MockLegalData.ByJurisdictionKeepsOrder | src/lib/mock-legal-data.ts:87 | filtering distributes over concatenation, so table order is kept |
| MockLegalData.LegalSourcesShape | src/lib/mock-legal-data.ts:24-84 | six records with pairwise different ids, and exactly two per jurisdiction |
| MockLegalData.SourcesOf | src/lib/mock-legal-data.ts:24-88 | the records of each jurisdiction, in table order |
| MockLegalData.Search | src/lib/mock-legal-data.ts:90-96 | the result holds exactly the records whose lowered title, excerpt or reference contains the lowered query |
| MockLegalData.SearchLegalSources | src/lib/mock-legal-data.ts:90-96 | the same over the legal-source table |
| MockLegalData.SearchKeepsOrder | src/lib/mock-legal-data.ts:92 | search distributes over concatenation, so table order is kept |
| MockLegalData.SearchEmptyQuery | src/lib/mock-legal-data.ts:92-96 | the empty query matches every record |
| MockLegalData.SearchIgnoresCase | src/lib/mock-legal-data.ts:91 | searching a query and its lowered form give the same records |
| MockLegalData.SearchIgnoresHiddenFields | src/lib/mock-legal-data.ts:92-96 | id, url and fullText never affect which records match |
| Text.IncludesIffOccurs | src/lib/mock-ai-responses.ts:229-240 | `includes` holds exactly when the pattern occurs at some position of the text |
| Text.ToLowerIdempotent | src/lib/mock-legal-data.ts:91 | lowering twice is lowering once |
| Text.Trim | src/lib/utils.ts:47 | the result neither starts nor ends with whitespace |
| Text.TrimBounds | src/lib/utils.ts:47 | the trimmed text is one contiguous piece of the original, with only whitespace on either side |
| Text.TrimEmptyIffBlank | src/app/page.tsx:19 | trimming gives "" exactly for a whitespace-only text |
| Text.Split | src/lib/utils.ts:10 | one piece more than there are separators; no piece holds the separator; joining the pieces gives back the text |
| Text.SplitJoin | src/lib/utils.ts:10 | splitting joined pieces that do not hold the separator gives back the pieces |
| Text.ReplaceCharIsSplitJoin | src/lib/source-helpers.ts:30 | global replacement of a character equals splitting on it and joining with the replacement |
| Text.ReplaceCharKeepsCount | src/lib/source-helpers.ts:30 | replacing a character with a text that holds it once keeps its count |
| Text.TrimKeepsCount | src/lib/source-helpers.ts:30 | trimming keeps the count of a non-space character |
| Seqs.Filter | src/lib/mock-legal-data.ts:87 | `Array.prototype.filter`: no longer than the input, and every element passes the test |
| Seqs.FilterMembers | src/lib/mock-legal-data.ts:87 | the elements of the result come from the input, and every element that passes the test is kept |
| Seqs.FilterDropsOne | src/app/page.tsx:67 | filtering out the one element that fails the test removes exactly that position |
| Seqs.Find | src/lib/source-helpers.ts:6-8 | `Array.prototype.find`: the first index that satisfies the test, or None exactly when no index does |

## Left out

- Delays and randomness are left out: the `setTimeout` waits and `Math.random` jitter in `streamText`, `simulateProcessingDelay` and `simulateSearchDelay`. They are floating-point and carry no logic beyond a floor.
- `generateId`, `Date.now()` and `new Date()` are parameters of `Page.Assemble` and `Page.HandleSearch`, because they are non-deterministic.
- `cn` and `formatDate` are left out. They wrap foreign libraries (clsx, tailwind-merge, `Intl.DateTimeFormat`).
- All JSX, styling and markup are left out. This includes src/components/loading-state.tsx, which is purely presentational.
- src/components/source-citation.tsx is left out. It is presentational, and the lookups it performs are `SourceHelpers.GetSourceUrl` and `GetLegalSourcesByJurisdiction`.
- React scheduling is left out. The reveal is a sequential state machine with explicit deliver and cancel events. Events other than cancellation that occur during the processing delay are not modelled: `Page.HandleSearch` runs a search with nothing in between.
- The catch branch of `handleSearch` (src/app/page.tsx:54-56) is left out. Nothing in the modelled path throws.
- `StreamingState` in src/types/index.ts is left out. It is declared but not used by the core.
- Utils.Truncate: lengths and `slice` count characters, where JavaScript counts UTF-16 code units, so a text with characters outside the Basic Multilingual Plane (emoji, for instance) is cut at a different place. `maxLength` is an integer: NaN, infinite and fractional limits are not modelled (`truncate("", NaN)`, for instance, returns "..." in JavaScript).
- Text.ToLower: ASCII only. `toLowerCase` and `trim` are modelled on ASCII letters and on the whitespace characters space, tab, newline, vertical tab, form feed and carriage return, not on the full Unicode tables.
- MockAiResponses.GetComparisonResponse: a finite map with a default. It does not model the JavaScript prototype keys such as `toString`, which the object lookup would find. The matcher never produces such a key.
- MockAiResponses.TopicalEntriesShape: the long prose strings of the table are constants of the model. Its contracts speak only about keys, list lengths and cited jurisdictions.
- The `/ 500` character counter under the query box is display-only, and no limit on the query is modelled. This is what the code does.
- Page.Assemble: the result keeps the response record whole in a field of its own, where the code spreads its fields into the result. The response's question is named `queryText`, as in the table at src/lib/mock-ai-responses.ts:2, not `query`, as in src/types/index.ts:21.

=== FILE: comparison_results.dfy ===
/** The reveal effect of src/components/comparison-results.tsx.  Each run
    of the effect clears the displayed analysis, marks it as streaming and
    then appends the chunks of `streamText(analysis)` one at a time; the
    run's cleanup sets a `cancelled` flag that makes the loop drop the next
    chunk it receives and stop.  The delays between chunks are left out:
    the generator's next answer is an explicit `Deliver` event and the
    cleanup an explicit `Cancel` event, which may come between any two
    deliveries. */
module ComparisonResults {
  import opened Types
  import opened Text
  import Utils

  /** The component state the effect writes: the displayed analysis and
      whether it is still streaming. */
  datatype View = View(shown: string, streaming: bool)

  /** One run of the effect: the chunks of its generator, how many of them
      the loop has received so far, its `cancelled` flag, and whether the
      loop has ended. */
  datatype Run = Run(chunks: seq<string>, received: nat, cancelled: bool, ended: bool)

  /** The mounted component: the analysis its effect last ran for, that
      effect's run, and the view. */
  datatype Component = Component(analysis: string, run: Run, view: View)

  // ---------------------------------------------------------------------
  // Events
  // ---------------------------------------------------------------------

  /** A fresh run for `analysis`: the view is reset to an empty, streaming
      text and nothing has been received yet. */
  function Start(analysis: string): (c: Component)
    ensures c.view == View("", true)
    ensures c.run.chunks == Utils.StreamText(analysis) && c.run.received == 0
    ensures !c.run.cancelled && !c.run.ended
  {
    Component(analysis, Run(Utils.StreamText(analysis), 0, false, false), View("", true))
  }

  /** The cleanup of the run: only the flag changes. */
  function Cancel(c: Component): (d: Component)
    ensures d.run.cancelled && d.view == c.view && d.analysis == c.analysis
    ensures d.run.chunks == c.run.chunks && d.run.received == c.run.received && d.run.ended == c.run.ended
  {
    c.(run := c.run.(cancelled := true))
  }

  /** The generator answers the loop once: with the next chunk, or by
      being exhausted.  A chunk that arrives after cancellation is dropped
      and ends the loop; exhaustion ends the loop and, unless the run was
      cancelled, turns streaming off.  An ended loop receives nothing. */
  function Deliver(c: Component): (d: Component)
    requires c.run.received <= |c.run.chunks|
    ensures d.analysis == c.analysis && d.run.chunks == c.run.chunks && d.run.cancelled == c.run.cancelled
    ensures d.run.received <= |d.run.chunks|
    ensures c.run.cancelled ==> d.view == c.view
    ensures c.run.ended ==> d == c
    ensures c.run.cancelled && !c.run.ended ==> d.run.ended
    ensures c.run.received == |c.run.chunks| ==> d.run.ended
    ensures !c.run.ended && !c.run.cancelled && c.run.received < |c.run.chunks| ==>
      d.view == c.view.(shown := c.view.shown + c.run.chunks[c.run.received])
      && d.run.received == c.run.received + 1 && !d.run.ended
    ensures d.view.streaming != c.view.streaming ==>
      !c.run.cancelled && !c.run.ended && c.run.received == |c.run.chunks| && !d.view.streaming
  {
    var run := c.run;
    if run.ended then c
    else if run.received < |run.chunks| then
      if run.cancelled then c.(run := run.(ended := true))
      else c.(run := run.(received := run.received + 1),
              view := c.view.(shown := c.view.shown + run.chunks[run.received]))
    else if run.cancelled then c.(run := run.(ended := true))
    else c.(run := run.(ended := true), view := c.view.(streaming := false))
  }

  /** A re-render with the given analysis.  The effect depends only on the
      analysis: the same analysis leaves everything as it is, a different
      one cancels the current run and starts a new one. */
  function Rerender(c: Component, analysis: string): (d: Component)
    ensures analysis == c.analysis ==> d == c
    ensures analysis != c.analysis ==> d == Start(analysis)
  {
    if analysis == c.analysis then c else Start(analysis)
  }

  /** `n` deliveries in a row, with no cancellation in between. */
  function Deliveries(c: Component, n: nat): (d: Component)
    requires c.run.received <= |c.run.chunks|
    ensures d.run.received <= |d.run.chunks|
    decreases n
  {
    if n == 0 then c else Deliveries(Deliver(c), n - 1)
  }

  // ---------------------------------------------------------------------
  // Invariant
  // ---------------------------------------------------------------------

  /** What holds of the component at every point: the run belongs to the
      current analysis; while the run is not cancelled the view shows
      exactly the chunks received so far; and streaming is off only after
      an uncancelled run reached the end of its chunks. */
  predicate Valid(c: Component)
  {
    c.run.chunks == Utils.StreamText(c.analysis)
    && c.run.received <= |c.run.chunks|
    && (!c.run.cancelled ==> c.view.shown == Concat(c.run.chunks[..c.run.received]))
    && (!c.view.streaming ==> c.run.ended && c.run.received == |c.run.chunks|)
    && (c.run.ended && !c.run.cancelled ==> !c.view.streaming)
  }

  /** Every event keeps the invariant. */
  lemma StartValid(analysis: string)
    ensures Valid(Start(analysis))
  {
    assert Start(analysis).run.chunks[..0] == [];
  }

  lemma CancelValid(c: Component)
    requires Valid(c)
    ensures Valid(Cancel(c))
  {
  }

  lemma DeliverValid(c: Component)
    requires Valid(c)
    ensures Valid(Deliver(c))
  {
    if !c.run.ended && !c.run.cancelled && c.run.received < |c.run.chunks| {
      ConcatPrefixStep(c.run.chunks, c.run.received);
    }
  }

  lemma RerenderValid(c: Component, analysis: string)
    requires Valid(c)
    ensures Valid(Rerender(c, analysis))
  {
    StartValid(analysis);
  }

  // ---------------------------------------------------------------------
  // Properties of the reveal
  // ---------------------------------------------------------------------

  /** After `k` uninterrupted deliveries of a fresh run, the view shows the
      first `k` chunks, in generator order, and is still streaming. */
  lemma UninterruptedPrefix(analysis: string, k: nat)
    requires k <= |Utils.StreamText(analysis)|
    ensures Deliveries(Start(analysis), k).view ==
      View(Concat(Utils.StreamText(analysis)[..k]), true)
    ensures Deliveries(Start(analysis), k).run.received == k
    ensures !Deliveries(Start(analysis), k).run.ended
  {
    UninterruptedRun(analysis, Utils.StreamText(analysis), k);
  }

  /** `UninterruptedPrefix` for any list of chunks. */
  lemma {:induction false} UninterruptedRun(analysis: string, chunks: seq<string>, k: nat)
    requires k <= |chunks|
    ensures Deliveries(Component(analysis, Run(chunks, 0, false, false), View("", true)), k)
      == Component(analysis, Run(chunks, k, false, false), View(Concat(chunks[..k]), true))
  {
    var c := Component(analysis, Run(chunks, 0, false, false), View("", true));
    if k == 0 {
      assert chunks[..0] == [];
    } else {
      UninterruptedRun(analysis, chunks, k - 1);
      DeliveriesLast(c, k - 1);
      ConcatPrefixStep(chunks, k - 1);
    }
  }

  /** The last of `n + 1` deliveries comes after the first `n`. */
  lemma {:induction false} DeliveriesLast(c: Component, n: nat)
    requires c.run.received <= |c.run.chunks|
    ensures Deliveries(c, n + 1) == Deliver(Deliveries(c, n))
    decreases n
  {
    if n > 0 {
      DeliveriesLast(Deliver(c), n - 1);
    }
  }

  /** An uninterrupted run ends with the whole analysis followed by the
      one trailing space the chunking adds, and with streaming off. */
  lemma RevealCompletes(analysis: string)
    ensures Deliveries(Start(analysis), |Utils.StreamText(analysis)| + 1).view == View(analysis + " ", false)
    ensures Deliveries(Start(analysis), |Utils.StreamText(analysis)| + 1).run.ended
  {
    RunCompletes(analysis, Utils.StreamText(analysis));
  }

  /** `RevealCompletes` for any list of chunks. */
  lemma RunCompletes(analysis: string, chunks: seq<string>)
    ensures Deliveries(Component(analysis, Run(chunks, 0, false, false), View("", true)), |chunks| + 1)
      == Component(analysis, Run(chunks, |chunks|, false, true), View(Concat(chunks), false))
  {
    var n := |chunks|;
    UninterruptedRun(analysis, chunks, n);
    DeliveriesLast(Component(analysis, Run(chunks, 0, false, false), View("", true)), n);
    assert chunks[..n] == chunks;
  }

  /** Once the run is cancelled, no delivery changes the view: a chunk
      already on its way is dropped, and streaming stays on. */
  lemma {:induction false} CancelledFreezes(c: Component, n: nat)
    requires c.run.received <= |c.run.chunks|
    requires c.run.cancelled
    ensures Deliveries(c, n).view == c.view
    decreases n
  {
    if n > 0 {
      CancelledFreezes(Deliver(c), n - 1);
    }
  }

  /** A run cancelled after `k` chunks keeps showing exactly those `k`
      chunks, and the view never stops streaming. */
  lemma CancelAfter(analysis: string, k: nat, n: nat)
    requires k <= |Utils.StreamText(analysis)|
    ensures Deliveries(Cancel(Deliveries(Start(analysis), k)), n).view ==
      View(Concat(Utils.StreamText(analysis)[..k]), true)
  {
    UninterruptedPrefix(analysis, k);
    CancelledFreezes(Cancel(Deliveries(Start(analysis), k)), n);
  }

  /** The effect loop as a single pass over the chunks of `analysis`: the
      run may be cancelled just before the chunk with index `cancelBefore`
      arrives.  The result is the view at the moment the loop ends. */
  method RevealLoop(analysis: string, cancelBefore: Option<nat>) returns (view: View)
    ensures cancelBefore.Some? && cancelBefore.value < |Utils.StreamText(analysis)| ==>
      view == View(Concat(Utils.StreamText(analysis)[..cancelBefore.value]), true)
    ensures cancelBefore.None? ==> view == View(analysis + " ", false)
    ensures cancelBefore.Some? && cancelBefore.value >= |Utils.StreamText(analysis)| ==>
      view == View(analysis + " ", true)
  {
    view := RevealChunks(Utils.StreamText(analysis), cancelBefore);
  }

  /** The loop of `RevealLoop` over any list of chunks. */
  method RevealChunks(chunks: seq<string>, cancelBefore: Option<nat>) returns (view: View)
    ensures cancelBefore.Some? && cancelBefore.value < |chunks| ==>
      view == View(Concat(chunks[..cancelBefore.value]), true)
    ensures cancelBefore.None? ==> view == View(Concat(chunks), false)
    ensures cancelBefore.Some? && cancelBefore.value >= |chunks| ==> view == View(Concat(chunks), true)
  {
    var shown := "";
    var i := 0;
    assert chunks[..0] == [];
    while i < |chunks|
      invariant 0 <= i <= |chunks|
      invariant shown == Concat(chunks[..i])
      invariant forall m :: 0 <= m < i ==> cancelBefore != Some(m)
    {
      if cancelBefore == Some(i) {
        view := View(shown, true);
        return;
      }
      ConcatPrefixStep(chunks, i);
      shown := shown + chunks[i];
      i := i + 1;
    }
    assert chunks[..i] == chunks;
    view := View(shown, cancelBefore.Some?);
  }
}

=== FILE: jurisdiction_selector.dfy ===
/** The selection logic of src/components/jurisdiction-selector.tsx: one
    button per entry of the jurisdiction table, marked selected when its
    code is in the current selection and disabled when it is not selected
    and three codes already are.  A click on a disabled button is ignored;
    any other click is forwarded to the page's toggle. */
module JurisdictionSelector {
  import opened Types
  import opened Seqs
  import MockLegalData

  /** No code occurs twice. */
  predicate Distinct(selected: seq<Jurisdiction>)
  {
    forall i, k :: 0 <= i < k < |selected| ==> selected[i] != selected[k]
  }

  predicate IsSelected(selected: seq<Jurisdiction>, j: Jurisdiction)
  {
    j in selected
  }

  predicate IsDisabled(selected: seq<Jurisdiction>, j: Jurisdiction)
  {
    !IsSelected(selected, j) && |selected| >= 3
  }

  /** The click handler of a button: the code it forwards to the toggle,
      or None when the button is disabled. */
  function OnClick(selected: seq<Jurisdiction>, j: Jurisdiction): (forwarded: Option<Jurisdiction>)
    ensures forwarded.Some? ==> forwarded.value == j
    ensures forwarded.None? <==> j !in selected && |selected| >= 3
  {
    if IsDisabled(selected, j) then None else Some(j)
  }

  /** What one rendered button shows. */
  datatype Button = Button(code: Jurisdiction, name: string, flag: string, selected: bool, disabled: bool)

  /** The buttons, one per table entry, in table order. */
  function Buttons(selected: seq<Jurisdiction>): (buttons: seq<Button>)
    ensures |buttons| == |MockLegalData.Jurisdictions|
    ensures forall i :: 0 <= i < |buttons| ==>
      buttons[i].code == MockLegalData.Jurisdictions[i].code
      && buttons[i].name == MockLegalData.Jurisdictions[i].name
      && (buttons[i].selected <==> buttons[i].code in selected)
      && (buttons[i].disabled <==> buttons[i].code !in selected && |selected| >= 3)
  {
    Map(MockLegalData.Jurisdictions, (info: JurisdictionInfo) =>
      Button(info.code, info.name, info.flag, IsSelected(selected, info.code), IsDisabled(selected, info.code)))
  }

  /** The buttons are CH, EU and UK, in that order. */
  lemma ButtonOrder(selected: seq<Jurisdiction>)
    ensures Map(Buttons(selected), (b: Button) => b.code) == [CH, EU, UK]
  {
    MockLegalData.JurisdictionTable();
    var codes := Map(Buttons(selected), (b: Button) => b.code);
    assert codes[0] == CH && codes[1] == EU && codes[2] == UK;
  }

  /** A selected code is never disabled, so a click that would remove it
      always reaches the toggle. */
  lemma SelectedIsForwarded(selected: seq<Jurisdiction>, j: Jurisdiction)
    requires j in selected
    ensures !IsDisabled(selected, j) && OnClick(selected, j) == Some(j)
  {
  }

  /** Three pairwise different codes are all the codes there are. */
  lemma ThreeCoverAll(a: Jurisdiction, b: Jurisdiction, c: Jurisdiction, j: Jurisdiction)
    requires a != b && a != c && b != c
    ensures j == a || j == b || j == c
  {
  }

  /** A selection without repeats that holds three codes holds them all. */
  lemma LongSelectionHoldsAll(selected: seq<Jurisdiction>)
    requires Distinct(selected)
    ensures |selected| >= 3 ==> forall j: Jurisdiction :: j in selected
  {
    if |selected| >= 3 {
      forall j: Jurisdiction
        ensures j in selected
      {
        ThreeCoverAll(selected[0], selected[1], selected[2], j);
      }
    }
  }

  /** Without repeats, a selection that misses some code has at most two
      codes, and no selection has more than three. */
  lemma DistinctBounds(selected: seq<Jurisdiction>)
    requires Distinct(selected)
    ensures |selected| <= 3
    ensures forall j: Jurisdiction :: j !in selected ==> |selected| <= 2
  {
    LongSelectionHoldsAll(selected);
    if |selected| >= 4 {
      FourthNotAmongFirstThree(selected);
      LongSelectionHoldsAll(selected[..3]);
    }
  }

  lemma FourthNotAmongFirstThree(selected: seq<Jurisdiction>)
    requires Distinct(selected) && |selected| >= 4
    ensures Distinct(selected[..3]) && selected[3] !in selected[..3]
  {
  }

  /** For a selection without repeats the disabled state never shows: a
      code that is not selected leaves room for it. */
  lemma NeverDisabled(selected: seq<Jurisdiction>, j: Jurisdiction)
    requires Distinct(selected)
    ensures !IsDisabled(selected, j)
    ensures OnClick(selected, j) == Some(j)
  {
    DistinctBounds(selected);
  }
}

=== FILE: mock_ai_responses.dfy ===
/** The canned answers and the keyword matcher that picks one of them
    (src/lib/mock-ai-responses.ts).  The long prose of each answer is kept
    verbatim; only its keys, list lengths and cited jurisdictions are used
    by the proofs. */
module MockAiResponses {
  import opened Types
  import opened Text

  // ---------------------------------------------------------------------
  // Topic keys and the response table
  // ---------------------------------------------------------------------

  const GdprSwissKey: string := "gdpr-swiss-data-protection"
  const BreachNotificationKey: string := "data-breach-notification"
  const CrossBorderTransferKey: string := "cross-border-data-transfer"
  const ContractFormationKey: string := "contract-formation-swiss-french"
  const DefaultKey: string := "default"

  /** The five topic keys the matcher can produce. */
  const TopicKeys: set<string> :=
    {GdprSwissKey, BreachNotificationKey, CrossBorderTransferKey, ContractFormationKey, DefaultKey}

  const GdprSwissResponse: ComparisonResponse := ComparisonResponse(
    queryText :=
      "Compare GDPR with Swiss Federal Data Protection Act",
    analysis :=
      "Both the EU General Data Protection Regulation (GDPR) and the Swiss " +
      "Federal Act on Data Protection (FADP) establish comprehensive " +
      "frameworks for personal data protection, but with notable differences " +
      "in scope and enforcement.\n" +
      "\n" +
      "**Legal Basis for Processing:**\n" +
      "The GDPR provides six explicit legal bases for data processing " +
      "(Article 6), including consent, contract, legal obligation, vital " +
      "interests, public task, and legitimate interests. The Swiss FADP " +
      "takes a more principles-based approach, requiring processing to be " +
      "lawful, proportionate, and in good faith (Article 6 FADP), without " +
      "enumerating specific legal bases as exhaustively.\n" +
      "\n" +
      "**Consent Requirements:**\n" +
      "Under GDPR, consent must be \"freely given, specific, informed and " +
      "unambiguous\" with a clear affirmative action. The Swiss FADP requires " +
      "consent for sensitive data processing but does not impose the same " +
      "granular requirements for standard consent mechanisms as GDPR.\n" +
      "\n" +
      "**Territorial Scope:**\n" +
      "GDPR applies extraterritorially to any organization processing EU " +
      "residents' data, regardless of establishment. The Swiss FADP applies " +
      "to controllers and processors in Switzerland, or those whose " +
      "activities affect individuals in Switzerland, but with a narrower " +
      "extraterritorial reach.",
    keyDifferences := [
      "GDPR has 6 explicit legal bases for processing; Swiss FADP uses " +
        "principles-based approach",
      "GDPR imposes fines up to \U{20AC}20M or 4% of global turnover; Swiss FADP " +
        "criminal penalties up to CHF 250,000",
      "GDPR requires 72-hour breach notification; Swiss FADP requires " +
        "notification \"as quickly as possible\"",
      "GDPR has mandatory DPO requirements; Swiss FADP has more limited DPO " +
        "obligations",
      "GDPR includes right to data portability; Swiss FADP does not " +
        "explicitly provide this right"
    ],
    similarities := [
      "Both require lawful, fair, and transparent processing",
      "Both mandate data breach notification to authorities",
      "Both recognize rights to access, rectification, and erasure",
      "Both require data protection impact assessments for high-risk " +
        "processing",
      "Both impose accountability obligations on controllers"
    ],
    practicalImplications :=
      "For Swiss companies doing business with EU clients, dual compliance " +
      "is necessary. Organizations should adopt the stricter GDPR standards " +
      "as a baseline, ensuring they meet both regimes. Key action items " +
      "include: implementing GDPR-compliant consent mechanisms, establishing " +
      "72-hour breach notification procedures, appointing a DPO if required " +
      "under either regime, and maintaining comprehensive processing records " +
      "that satisfy both laws.",
    sources := [
      Citation(EU, "Regulation (EU) 2016/679, Art. 6",
        "Legal basis for processing under GDPR"),
      Citation(CH, "SR 235.1, Art. 6",
        "Principles of data processing under Swiss law"),
      Citation(EU, "Regulation (EU) 2016/679, Art. 33",
        "Data breach notification requirements"),
      Citation(CH, "SR 235.1, Art. 19",
        "Swiss data breach notification duty")
    ]
  )

  const BreachNotificationResponse: ComparisonResponse := ComparisonResponse(
    queryText :=
      "What are the data breach notification requirements in EU vs " +
      "Switzerland?",
    analysis :=
      "Data breach notification requirements represent a critical compliance " +
      "obligation under both EU and Swiss data protection law, though with " +
      "important procedural distinctions.\n" +
      "\n" +
      "**EU GDPR Requirements (Article 33):**\n" +
      "Controllers must notify the relevant supervisory authority \"without " +
      "undue delay and, where feasible, not later than 72 hours after having " +
      "become aware\" of a personal data breach, unless the breach is " +
      "unlikely to result in a risk to individuals' rights and freedoms. If " +
      "notification occurs after 72 hours, it must be accompanied by reasons " +
      "for the delay.\n" +
      "\n" +
      "**Swiss FADP Requirements (Article 19):**\n" +
      "Controllers must notify the Federal Data Protection and Information " +
      "Commissioner (FDPIC) \"as quickly as possible\" if a data breach is " +
      "likely to result in a \"high risk\" to the personality or fundamental " +
      "rights of the data subject. The Swiss law does not impose a specific " +
      "72-hour deadline but requires documentation of all data breaches.\n" +
      "\n" +
      "**Risk Threshold:**\n" +
      "GDPR requires notification when there is a \"risk\" to rights and " +
      "freedoms (with a lower threshold than Swiss law). Swiss FADP requires " +
      "notification only when there is a \"high risk\" to personality or " +
      "fundamental rights, creating a higher bar for mandatory notification.",
    keyDifferences := [
      "GDPR: 72-hour notification deadline; Swiss: \"as quickly as possible\" " +
        "without specific timeframe",
      "GDPR: Notification required for \"risk\"; Swiss: Notification required " +
        "for \"high risk\"",
      "GDPR: Must explain delay if beyond 72 hours; Swiss: No specific delay " +
        "explanation requirement",
      "GDPR: Notification to supervisory authority in member state; Swiss: " +
        "Notification to FDPIC only",
      "GDPR: Individual notification required if \"high risk\"; Swiss: " +
        "Individual notification at FDPIC discretion"
    ],
    similarities := [
      "Both require notification to data protection authorities",
      "Both require documentation of all data breaches",
      "Both assess risk to individuals as notification trigger",
      "Both require description of breach nature and consequences",
      "Both require information on mitigation measures taken"
    ],
    practicalImplications :=
      "Organizations operating in both jurisdictions should adopt the " +
      "stricter GDPR 72-hour standard as their operational baseline. This " +
      "ensures compliance with both regimes while simplifying internal " +
      "incident response procedures. Establish clear breach detection " +
      "mechanisms, maintain breach registers, and create notification " +
      "templates that satisfy both Swiss and EU requirements.",
    sources := [
      Citation(EU, "Regulation (EU) 2016/679, Art. 33",
        "GDPR breach notification to supervisory authority"),
      Citation(EU, "Regulation (EU) 2016/679, Art. 34",
        "GDPR notification to affected individuals"),
      Citation(CH, "SR 235.1, Art. 19",
        "Swiss breach notification duty")
    ]
  )

  const CrossBorderTransferResponse: ComparisonResponse := ComparisonResponse(
    queryText :=
      "Analyze cross-border data transfer rules: EU-Swiss framework",
    analysis :=
      "Cross-border data transfers between the EU and Switzerland operate " +
      "under a complex framework that has evolved significantly following " +
      "the Schrems II decision and Switzerland's adequacy recognition.\n" +
      "\n" +
      "**Switzerland's Adequacy Status:**\n" +
      "Switzerland benefits from an adequacy decision from the European " +
      "Commission (Decision 2000/518/EC, maintained post-GDPR), meaning that " +
      "personal data can flow from the EU/EEA to Switzerland without " +
      "additional safeguards. However, this adequacy status is under review " +
      "and may face challenges similar to the EU-US Privacy Shield.\n" +
      "\n" +
      "**EU to Switzerland Transfers:**\n" +
      "Data transfers from the EU to Switzerland are treated as transfers " +
      "within the EEA, requiring no additional mechanisms beyond the " +
      "adequacy decision. Controllers must still ensure Swiss recipients " +
      "provide adequate protection and document the transfer.\n" +
      "\n" +
      "**Switzerland to EU Transfers:**\n" +
      "Under Swiss FADP Article 16, data transfers abroad are permitted if " +
      "the destination provides adequate protection. The Swiss Federal " +
      "Council recognizes EU/EEA countries as providing adequate protection, " +
      "facilitating smooth data flows.\n" +
      "\n" +
      "**Post-Schrems II Considerations:**\n" +
      "Following CJEU Schrems II (C-311/18), organizations must conduct " +
      "Transfer Impact Assessments (TIAs) when using Standard Contractual " +
      "Clauses (SCCs) or other transfer mechanisms beyond adequacy " +
      "decisions. While Switzerland's adequacy remains valid, ongoing " +
      "monitoring is essential.",
    keyDifferences := [
      "EU uses adequacy decisions as primary transfer mechanism; Swiss law " +
        "recognizes adequate countries by Federal Council ordinance",
      "GDPR requires explicit Article 46 safeguards when no adequacy exists; " +
        "Swiss FADP allows alternative adequate guarantees",
      "GDPR SCCs updated 2021; Swiss SCCs being modernized to align with new " +
        "FADP",
      "GDPR emphasizes transparency to data subjects; Swiss FADP less " +
        "prescriptive on transfer documentation"
    ],
    similarities := [
      "Both prohibit transfers to countries without adequate protection",
      "Both recognize adequacy decisions as primary transfer mechanism",
      "Both allow Standard Contractual Clauses as safeguard",
      "Both require assessment of destination country laws",
      "Both subject transfers to data subject rights"
    ],
    practicalImplications :=
      "For companies transferring data between EU and Switzerland, the " +
      "current adequacy framework simplifies compliance. However, " +
      "organizations should: (1) Monitor adequacy status updates, (2) " +
      "Maintain SCCs as backup transfer mechanism, (3) Conduct periodic TIAs " +
      "for sensitive data transfers, (4) Document all cross-border " +
      "transfers, and (5) Prepare for potential adequacy decision revocation " +
      "by establishing alternative safeguards.",
    sources := [
      Citation(EU, "Regulation (EU) 2016/679, Art. 45",
        "GDPR adequacy decisions"),
      Citation(EU, "Regulation (EU) 2016/679, Art. 46",
        "GDPR transfer safeguards (SCCs, BCRs)"),
      Citation(CH, "SR 235.1, Art. 16",
        "Swiss cross-border data disclosure requirements")
    ]
  )

  const ContractFormationResponse: ComparisonResponse := ComparisonResponse(
    queryText :=
      "Compare contract formation requirements: Swiss OR vs French Code Civil",
    analysis :=
      "Contract formation under Swiss and French law share Romano-Germanic " +
      "roots but diverge in crucial areas, particularly regarding form " +
      "requirements and the role of causa.\n" +
      "\n" +
      "**Fundamental Requirements:**\n" +
      "Swiss law (Swiss Code of Obligations, Art. 1) requires: (1) mutual " +
      "consent (agreement of the parties), (2) lawful content, and (3) " +
      "possible performance. French law (Code Civil, Art. 1128) requires: " +
      "(1) consent, (2) contractual capacity, (3) determined and lawful " +
      "content.\n" +
      "\n" +
      "**Causa/Cause Requirement:**\n" +
      "A critical distinction: French law historically required \"cause\" " +
      "(legitimate reason for contracting) as a validity requirement under " +
      "former Article 1131 Code Civil. The 2016 reform eliminated \"cause\" " +
      "but introduced \"contenu licite et certain\" (lawful and certain " +
      "content), effectively maintaining similar scrutiny. Swiss law does " +
      "not explicitly require causa as a separate element; purpose is " +
      "examined within the \"lawful content\" assessment.\n" +
      "\n" +
      "**Form Requirements:**\n" +
      "Swiss law follows freedom of form (Article 11 OR) - contracts are " +
      "valid regardless of form unless law prescribes otherwise. French law " +
      "similarly embraces consensualism (Art. 1172 Code Civil), requiring " +
      "specific form only when mandated by statute.",
    keyDifferences := [
      "French law explicitly requires \"contractual capacity\"; Swiss law " +
        "presumes capacity under civil law",
      "French Civil Code underwent major reform in 2016; Swiss OR dates to " +
        "1911 with incremental updates",
      "French law emphasizes \"loyalty\" in negotiation (Art. 1104); Swiss law " +
        "addresses good faith in performance",
      "French law has stricter rules on standard form contracts (Art. 1119); " +
        "Swiss OR less prescriptive"
    ],
    similarities := [
      "Both require mutual consent as foundation",
      "Both follow principle of freedom of form (consensualism)",
      "Both require lawful and possible content",
      "Both recognize pre-contractual liability for bad faith negotiation",
      "Both distinguish between void and voidable contracts"
    ],
    practicalImplications :=
      "For cross-border contracts between Swiss and French parties: (1) " +
      "Include explicit choice of law clause, (2) Ensure written form even " +
      "if not legally required (evidentiary purposes), (3) Document " +
      "pre-contractual negotiations to address French \"loyalty\" " +
      "requirements, (4) Verify both parties have contractual capacity under " +
      "their respective laws, (5) Consider arbitration clause to avoid " +
      "jurisdictional conflicts.",
    sources := [
      Citation(CH, "SR 220, Art. 1",
        "Swiss Code of Obligations - Contract formation requirements"),
      Citation(CH, "SR 220, Art. 11",
        "Swiss freedom of form principle")
    ]
  )

  const DefaultResponse: ComparisonResponse := ComparisonResponse(
    queryText :=
      "General legal comparison",
    analysis :=
      "This query requires specific legal research across the selected " +
      "jurisdictions. The International Bridge feature analyzes legal " +
      "frameworks by comparing statutory provisions, case law, and " +
      "regulatory guidance.\n" +
      "\n" +
      "For precise comparative analysis, please specify:\n" +
      "- Particular legal areas (e.g., data protection, contract law, " +
      "employment law)\n" +
      "- Specific statutes or regulations to compare\n" +
      "- Practical scenarios requiring cross-jurisdictional guidance\n" +
      "\n" +
      "The system will then provide detailed analysis with source citations " +
      "from official legal databases.",
    keyDifferences := [
      "Query requires more specific parameters for detailed comparison"
    ],
    similarities := [
      "Common legal principles may apply across jurisdictions"
    ],
    practicalImplications :=
      "Refine your query with specific legal topics for comprehensive " +
      "cross-jurisdictional analysis.",
    sources := []
  )

  /** The static response table, keyed by topic. */
  const MockComparisons: map<string, ComparisonResponse> := map[
    GdprSwissKey := GdprSwissResponse,
    BreachNotificationKey := BreachNotificationResponse,
    CrossBorderTransferKey := CrossBorderTransferResponse,
    ContractFormationKey := ContractFormationResponse,
    DefaultKey := DefaultResponse
  ]

  /** The table holds exactly the five topic keys. */
  lemma TableKeys()
    ensures MockComparisons.Keys == TopicKeys
  {
  }

  /** Looking up a topic never fails: a key of the table yields its own
      entry and any other key yields the fallback entry. */
  function GetComparisonResponse(key: string): (r: ComparisonResponse)
    ensures r in MockComparisons.Values
    ensures key in MockComparisons ==> r == MockComparisons[key]
    ensures key !in MockComparisons ==> r == DefaultResponse
  {
    if key in MockComparisons then MockComparisons[key] else MockComparisons[DefaultKey]
  }

  // ---------------------------------------------------------------------
  // The keyword matcher
  // ---------------------------------------------------------------------

  /** Picks the topic of a query: the query is lowered, then four keyword
      rules are tried in a fixed order and the first that holds decides;
      when none holds the answer is the fallback topic. */
  function FindBestMatch(query: string): (key: string)
    ensures key in TopicKeys
  {
    var q := ToLower(query);
    if Includes(q, "gdpr") && Includes(q, "swiss") then GdprSwissKey
    else if Includes(q, "breach") && Includes(q, "notification") then BreachNotificationKey
    else if Includes(q, "transfer") || Includes(q, "cross-border") then CrossBorderTransferKey
    else if Includes(q, "contract") && (Includes(q, "french") || Includes(q, "france")) then ContractFormationKey
    else DefaultKey
  }

  /** A keyword condition over the lowered query. */
  datatype Condition =
    | Has(word: string)
    | Both(left: Condition, right: Condition)
    | Either(left: Condition, right: Condition)

  predicate Holds(c: Condition, text: string)
  {
    match c
    case Has(w) => Includes(text, w)
    case Both(l, r) => Holds(l, text) && Holds(r, text)
    case Either(l, r) => Holds(l, text) || Holds(r, text)
  }

  datatype Rule = Rule(condition: Condition, key: string)

  /** The matcher's rules as data, in priority order. */
  const MatchRules: seq<Rule> := [
    Rule(Both(Has("gdpr"), Has("swiss")), GdprSwissKey),
    Rule(Both(Has("breach"), Has("notification")), BreachNotificationKey),
    Rule(Either(Has("transfer"), Has("cross-border")), CrossBorderTransferKey),
    Rule(Both(Has("contract"), Either(Has("french"), Has("france"))), ContractFormationKey)
  ]

  /** Reference semantics of an ordered rule list: the key of the first rule
      whose condition holds, or `fallback`. */
  function FirstMatch(rules: seq<Rule>, text: string, fallback: string): (key: string)
    ensures key == fallback || exists i :: 0 <= i < |rules| && rules[i].key == key
    decreases |rules|
  {
    if |rules| == 0 then fallback
    else if Holds(rules[0].condition, text) then rules[0].key
    else FirstMatch(rules[1..], text, fallback)
  }

  /** The first rule that holds decides, whatever later rules say. */
  lemma {:induction false} FirstMatchIsEarliest(rules: seq<Rule>, text: string, fallback: string, i: nat)
    requires i < |rules| && Holds(rules[i].condition, text)
    requires forall j :: 0 <= j < i ==> !Holds(rules[j].condition, text)
    ensures FirstMatch(rules, text, fallback) == rules[i].key
    decreases i
  {
    if i > 0 {
      assert !Holds(rules[0].condition, text);
      FirstMatchIsEarliest(rules[1..], text, fallback, i - 1);
    }
  }

  /** When no rule holds, the fallback is returned. */
  lemma {:induction false} FirstMatchFallback(rules: seq<Rule>, text: string, fallback: string)
    requires forall j :: 0 <= j < |rules| ==> !Holds(rules[j].condition, text)
    ensures FirstMatch(rules, text, fallback) == fallback
    decreases |rules|
  {
    if |rules| > 0 {
      assert !Holds(rules[0].condition, text);
      FirstMatchFallback(rules[1..], text, fallback);
    }
  }

  /** The matcher is the first-match semantics of `MatchRules` applied to
      the lowered query, with `DefaultKey` as fallback. */
  lemma FindBestMatchFollowsRules(query: string)
    ensures FindBestMatch(query) == FirstMatch(MatchRules, ToLower(query), DefaultKey)
  {
    var q := ToLower(query);
    RuleMeanings(q);
    var r3 := [MatchRules[3]];
    var r2 := [MatchRules[2]] + r3;
    var r1 := [MatchRules[1]] + r2;
    assert MatchRules == [MatchRules[0]] + r1;
    assert r3[1..] == [] && r2[1..] == r3 && r1[1..] == r2 && MatchRules[1..] == r1;
    assert FirstMatch(r3, q, DefaultKey)
      == if Holds(MatchRules[3].condition, q) then ContractFormationKey else DefaultKey;
    assert FirstMatch(r2, q, DefaultKey)
      == if Holds(MatchRules[2].condition, q) then CrossBorderTransferKey else FirstMatch(r3, q, DefaultKey);
    assert FirstMatch(r1, q, DefaultKey)
      == if Holds(MatchRules[1].condition, q) then BreachNotificationKey else FirstMatch(r2, q, DefaultKey);
    assert FirstMatch(MatchRules, q, DefaultKey)
      == if Holds(MatchRules[0].condition, q) then GdprSwissKey else FirstMatch(r1, q, DefaultKey);
  }

  lemma RuleMeanings(q: string)
    ensures Holds(MatchRules[0].condition, q) == (Includes(q, "gdpr") && Includes(q, "swiss"))
    ensures Holds(MatchRules[1].condition, q) == (Includes(q, "breach") && Includes(q, "notification"))
    ensures Holds(MatchRules[2].condition, q) == (Includes(q, "transfer") || Includes(q, "cross-border"))
    ensures Holds(MatchRules[3].condition, q)
      == (Includes(q, "contract") && (Includes(q, "french") || Includes(q, "france")))
  {
    var french := Either(Has("french"), Has("france"));
    assert Holds(french, q) == (Includes(q, "french") || Includes(q, "france"));
    assert MatchRules[3].condition == Both(Has("contract"), french);
  }

  /** Rule `i` decides whenever it holds and no earlier rule does. */
  lemma RulePriority(query: string, i: nat)
    requires i < |MatchRules|
    requires Holds(MatchRules[i].condition, ToLower(query))
    requires forall j :: 0 <= j < i ==> !Holds(MatchRules[j].condition, ToLower(query))
    ensures FindBestMatch(query) == MatchRules[i].key
  {
    FindBestMatchFollowsRules(query);
    FirstMatchIsEarliest(MatchRules, ToLower(query), DefaultKey, i);
  }

  /** The fallback topic is chosen exactly when no rule holds. */
  lemma DefaultIffNoRule(query: string)
    ensures FindBestMatch(query) == DefaultKey
        <==> forall j :: 0 <= j < |MatchRules| ==> !Holds(MatchRules[j].condition, ToLower(query))
  {
    FindBestMatchFollowsRules(query);
    var q := ToLower(query);
    if exists j :: 0 <= j < |MatchRules| && Holds(MatchRules[j].condition, q) {
      var j :| 0 <= j < |MatchRules| && Holds(MatchRules[j].condition, q);
      var first := FirstHolding(q, j);
      FirstMatchIsEarliest(MatchRules, q, DefaultKey, first);
    } else {
      FirstMatchFallback(MatchRules, q, DefaultKey);
    }
  }

  /** Some rule at or before `j` is the first that holds. */
  lemma FirstHolding(q: string, j: nat) returns (first: nat)
    requires j < |MatchRules| && Holds(MatchRules[j].condition, q)
    ensures first <= j && Holds(MatchRules[first].condition, q)
    ensures forall k :: 0 <= k < first ==> !Holds(MatchRules[k].condition, q)
  {
    first := 0;
    while !Holds(MatchRules[first].condition, q)
      invariant first <= j
      invariant forall k :: 0 <= k < first ==> !Holds(MatchRules[k].condition, q)
      decreases j - first
    {
      first := first + 1;
    }
  }

  /** Matching ignores letter case: a query, its lowered form and its
      upper-cased form all pick the same topic. */
  lemma MatchIgnoresCase(query: string)
    ensures FindBestMatch(ToLower(query)) == FindBestMatch(query)
    ensures FindBestMatch(ToUpper(query)) == FindBestMatch(query)
  {
    ToLowerIdempotent(query);
    ToLowerOfUpper(query);
  }

  /** A query with both the "gdpr"+"swiss" keywords and the
      "breach"+"notification" keywords resolves by rule order to the
      GDPR/Swiss topic. */
  lemma GdprSwissOutranksBreach(query: string)
    requires Includes(ToLower(query), "gdpr") && Includes(ToLower(query), "swiss")
    requires Includes(ToLower(query), "breach") && Includes(ToLower(query), "notification")
    ensures FindBestMatch(query) == GdprSwissKey
  {
  }

  /** A query holding none of the rule keywords, the empty query among
      them, resolves to the fallback topic. */
  lemma NoKeywordMeansDefault(query: string)
    requires forall w :: w in ["gdpr", "breach", "transfer", "cross-border", "contract"] ==> !Includes(ToLower(query), w)
    ensures FindBestMatch(query) == DefaultKey
  {
  }

  lemma EmptyQueryIsDefault()
    ensures FindBestMatch("") == DefaultKey
  {
    NoKeywordMeansDefault("");
  }

  /** Every topic the matcher picks has its own table entry, so the lookup
      after matching never falls back. */
  lemma MatchedTopicHasEntry(query: string)
    ensures GetComparisonResponse(FindBestMatch(query)) == MockComparisons[FindBestMatch(query)]
  {
  }

  // ---------------------------------------------------------------------
  // Shape of the table
  // ---------------------------------------------------------------------

  function SourceJurisdictions(r: ComparisonResponse): (js: seq<Jurisdiction>)
    ensures |js| == |r.sources|
    ensures forall i :: 0 <= i < |js| ==> js[i] == r.sources[i].jurisdiction
  {
    seq(|r.sources|, i requires 0 <= i < |r.sources| => r.sources[i].jurisdiction)
  }

  /** List lengths and cited jurisdictions of the four topical entries. */
  lemma TopicalEntriesShape()
    ensures |GdprSwissResponse.keyDifferences| == 5 && |GdprSwissResponse.similarities| == 5
    ensures SourceJurisdictions(GdprSwissResponse) == [EU, CH, EU, CH]
    ensures |BreachNotificationResponse.keyDifferences| == 5 && |BreachNotificationResponse.similarities| == 5
    ensures SourceJurisdictions(BreachNotificationResponse) == [EU, EU, CH]
    ensures |CrossBorderTransferResponse.keyDifferences| == 4 && |CrossBorderTransferResponse.similarities| == 5
    ensures SourceJurisdictions(CrossBorderTransferResponse) == [EU, EU, CH]
    ensures |ContractFormationResponse.keyDifferences| == 4 && |ContractFormationResponse.similarities| == 5
    ensures SourceJurisdictions(ContractFormationResponse) == [CH, CH]
  {
  }

  /** The fallback entry cites nothing and has one difference and one
      similarity. */
  lemma DefaultEntryShape()
    ensures |DefaultResponse.keyDifferences| == 1 && |DefaultResponse.similarities| == 1
    ensures DefaultResponse.sources == []
    ensures GetComparisonResponse(DefaultKey) == DefaultResponse
  {
  }

  /** No answer of the table cites a UK provision, whatever the selection. */
  lemma NoEntryCitesUK(key: string)
    ensures UK !in SourceJurisdictions(GetComparisonResponse(key))
  {
    TopicalEntriesShape();
  }

  /** The GDPR-Swiss topic yields its own answer. */
  lemma GdprSwissEntry()
    ensures GetComparisonResponse(GdprSwissKey) == GdprSwissResponse
    ensures |GdprSwissResponse.keyDifferences| == 5
  {
    GdprSwissDifferences();
  }

  /** The GDPR/Swiss entry lists five differences, the first contrasting
      the six GDPR legal bases with the Swiss principles-based approach. */
  lemma GdprSwissDifferences()
    ensures |GdprSwissResponse.keyDifferences| == 5
    ensures GdprSwissResponse.keyDifferences[0] ==
      "GDPR has 6 explicit legal bases for processing; Swiss FADP uses " +
      "principles-based approach"
  {
  }
}

=== FILE: mock_legal_data.dfy ===
/** The static legal data of src/lib/mock-legal-data.ts: the jurisdiction
    table the selector renders, the six legal-source records, the filter by
    jurisdiction and the case-insensitive substring search. */
module MockLegalData {
  import opened Types
  import opened Text
  import opened Seqs
  import Utils

  // ---------------------------------------------------------------------
  // Jurisdiction table
  // ---------------------------------------------------------------------

  /** The selectable jurisdictions, in display order; flags are pairs of
      regional-indicator symbols. */
  const Jurisdictions: seq<JurisdictionInfo> := [
    JurisdictionInfo(CH, "Switzerland", "\U{1F1E8}\U{1F1ED}", "#DC143C"),
    JurisdictionInfo(EU, "European Union", "\U{1F1EA}\U{1F1FA}", "#003399"),
    JurisdictionInfo(UK, "United Kingdom", "\U{1F1EC}\U{1F1E7}", "#012169")
  ]

  /** The codes of a jurisdiction table, in order. */
  function Codes(table: seq<JurisdictionInfo>): seq<Jurisdiction>
  {
    Map(table, (info: JurisdictionInfo) => info.code)
  }

  /** The table lists every jurisdiction exactly once, CH, EU, UK in that
      order, and its colours are the ones the colour helper hands out. */
  lemma JurisdictionTable()
    ensures Codes(Jurisdictions) == [CH, EU, UK]
    ensures forall j: Jurisdiction :: j in Codes(Jurisdictions)
    ensures forall i, k :: 0 <= i < k < |Jurisdictions| ==> Jurisdictions[i].code != Jurisdictions[k].code
    ensures forall i :: 0 <= i < |Jurisdictions| ==>
      Jurisdictions[i].color == Utils.JurisdictionColor(Jurisdictions[i].code)
  {
    var codes := Codes(Jurisdictions);
    assert codes[0] == CH && codes[1] == EU && codes[2] == UK;
    assert codes == [CH, EU, UK];
    forall j: Jurisdiction
      ensures j in codes
    {
      assert j == codes[0] || j == codes[1] || j == codes[2];
    }
  }

  // ---------------------------------------------------------------------
  // Legal-source table
  // ---------------------------------------------------------------------

  const ChDpa1: LegalSource := LegalSource(
    id := "ch-dpa-1",
    jurisdiction := CH,
    title := "Federal Act on Data Protection (FADP)",
    reference := "SR 235.1, Art. 6",
    url := "https://www.fedlex.admin.ch/eli/cc/2022/491/en",
    excerpt :=
      "Personal data may only be processed lawfully. In particular, its " +
      "processing must be proportionate and carried out in good faith.",
    fullText := Some(
      "Article 6 - Principles: 1. Personal data may only be processed " +
      "lawfully. 2. Its processing must be carried out in good faith and " +
      "must be proportionate. 3. Personal data may only be processed for a " +
      "specific purpose that is evident to the data subject at the time of " +
      "collection. Only data that is necessary for the processing purpose " +
      "may be processed.")
  )

  const ChDpa2: LegalSource := LegalSource(
    id := "ch-dpa-2",
    jurisdiction := CH,
    title := "Federal Act on Data Protection (FADP)",
    reference := "SR 235.1, Art. 19",
    url := "https://www.fedlex.admin.ch/eli/cc/2022/491/en",
    excerpt :=
      "The controller must notify the Federal Data Protection and " +
      "Information Commissioner (FDPIC) as quickly as possible if a data " +
      "breach is likely to result in a high risk to the personality or " +
      "fundamental rights of the data subject.",
    fullText := Some(
      "Article 19 - Duty to notify in the event of a data breach: 1. The " +
      "controller must notify the Federal Data Protection and Information " +
      "Commissioner (FDPIC) as quickly as possible if a data breach is " +
      "likely to result in a high risk to the personality or fundamental " +
      "rights of the data subject. 2. The controller must document data " +
      "breaches and notify the FDPIC thereof.")
  )

  const EuGdpr1: LegalSource := LegalSource(
    id := "eu-gdpr-1",
    jurisdiction := EU,
    title := "General Data Protection Regulation (GDPR)",
    reference := "Regulation (EU) 2016/679, Art. 6",
    url := "https://eur-lex.europa.eu/eli/reg/2016/679/oj",
    excerpt :=
      "Processing shall be lawful only if and to the extent that at least " +
      "one of the following applies: (a) the data subject has given consent; " +
      "(b) processing is necessary for the performance of a contract...",
    fullText := Some(
      "Article 6 - Lawfulness of processing: 1. Processing shall be lawful " +
      "only if and to the extent that at least one of the following applies: " +
      "(a) the data subject has given consent to the processing of his or " +
      "her personal data for one or more specific purposes; (b) processing " +
      "is necessary for the performance of a contract to which the data " +
      "subject is party...")
  )

  const EuGdpr2: LegalSource := LegalSource(
    id := "eu-gdpr-2",
    jurisdiction := EU,
    title := "General Data Protection Regulation (GDPR)",
    reference := "Regulation (EU) 2016/679, Art. 33",
    url := "https://eur-lex.europa.eu/eli/reg/2016/679/oj",
    excerpt :=
      "In the case of a personal data breach, the controller shall without " +
      "undue delay and, where feasible, not later than 72 hours after having " +
      "become aware of it, notify the personal data breach to the " +
      "supervisory authority...",
    fullText := Some(
      "Article 33 - Notification of a personal data breach to the " +
      "supervisory authority: 1. In the case of a personal data breach, the " +
      "controller shall without undue delay and, where feasible, not later " +
      "than 72 hours after having become aware of it, notify the personal " +
      "data breach to the supervisory authority competent in accordance with " +
      "Article 55...")
  )

  const UkDpa1: LegalSource := LegalSource(
    id := "uk-dpa-1",
    jurisdiction := UK,
    title := "UK Data Protection Act 2018",
    reference := "DPA 2018, Schedule 1, Part 1",
    url := "https://www.legislation.gov.uk/ukpga/2018/12/schedule/1",
    excerpt :=
      "The GDPR principles: Personal data must be processed lawfully, fairly " +
      "and in a transparent manner in relation to the data subject.",
    fullText := Some(
      "Schedule 1, Part 1 - The GDPR principles: (1) Personal data must be\U{2014} " +
      "(a) processed lawfully, fairly and in a transparent manner in " +
      "relation to the data subject ('lawfulness, fairness and " +
      "transparency'); (b) collected for specified, explicit and legitimate " +
      "purposes and not further processed in a manner that is incompatible " +
      "with those purposes...")
  )

  const UkDpa2: LegalSource := LegalSource(
    id := "uk-dpa-2",
    jurisdiction := UK,
    title := "UK Data Protection Act 2018",
    reference := "DPA 2018, Section 67",
    url := "https://www.legislation.gov.uk/ukpga/2018/12/section/67",
    excerpt :=
      "Where a personal data breach has occurred, the controller must notify " +
      "the Commissioner without undue delay and, where feasible, not later " +
      "than 72 hours after becoming aware of it.",
    fullText := Some(
      "Section 67 - Notification of a personal data breach to the " +
      "Commissioner: (1) Where a personal data breach has occurred, the " +
      "controller must notify the Commissioner without undue delay and, " +
      "where feasible, not later than 72 hours after becoming aware of it, " +
      "unless the personal data breach is unlikely to result in a risk to " +
      "the rights and freedoms of individuals.")
  )

  /** The legal-source table: two records per jurisdiction. */
  const LegalSources: seq<LegalSource> := [ChDpa1, ChDpa2, EuGdpr1, EuGdpr2, UkDpa1, UkDpa2]

  /** The jurisdictions and reference lengths of the table, in order. */
  lemma ReferenceLengths()
    ensures |LegalSources| == 6
    ensures LegalSources[0].jurisdiction == CH && |LegalSources[0].reference| == 16
    ensures LegalSources[1].jurisdiction == CH && |LegalSources[1].reference| == 17
    ensures LegalSources[2].jurisdiction == EU && |LegalSources[2].reference| == 32
    ensures LegalSources[3].jurisdiction == EU && |LegalSources[3].reference| == 33
    ensures LegalSources[4].jurisdiction == UK && |LegalSources[4].reference| == 28
    ensures LegalSources[5].jurisdiction == UK && |LegalSources[5].reference| == 20
    ensures forall k :: 0 <= k < |LegalSources| ==> LegalSources[k].url != ""
  {
  }

  /** The records of `table` that belong to `j`, in table order. */
  function ByJurisdiction(table: seq<LegalSource>, j: Jurisdiction): (r: seq<LegalSource>)
    ensures forall i :: 0 <= i < |r| ==> r[i].jurisdiction == j && r[i] in table
    ensures forall i :: 0 <= i < |table| && table[i].jurisdiction == j ==> table[i] in r
  {
    FilterMembers(table, (s: LegalSource) => s.jurisdiction == j);
    Filter(table, (s: LegalSource) => s.jurisdiction == j)
  }

  /** `getLegalSourcesByJurisdiction`. */
  function GetLegalSourcesByJurisdiction(j: Jurisdiction): (r: seq<LegalSource>)
    ensures forall i :: 0 <= i < |r| ==> r[i].jurisdiction == j && r[i] in LegalSources
    ensures forall i :: 0 <= i < |LegalSources| && LegalSources[i].jurisdiction == j ==> LegalSources[i] in r
  {
    ByJurisdiction(LegalSources, j)
  }

  /** The jurisdiction filter keeps table order: filtering a table made of
      two parts filters each part and keeps the first part's records first. */
  lemma ByJurisdictionKeepsOrder(a: seq<LegalSource>, b: seq<LegalSource>, j: Jurisdiction)
    ensures ByJurisdiction(a + b, j) == ByJurisdiction(a, j) + ByJurisdiction(b, j)
  {
    FilterAppend(a, b, (s: LegalSource) => s.jurisdiction == j);
  }

  /** The table has six records with distinct ids, and each jurisdiction
      owns exactly two of them. */
  lemma LegalSourcesShape()
    ensures |LegalSources| == 6
    ensures forall i, k :: 0 <= i < k < |LegalSources| ==> LegalSources[i].id != LegalSources[k].id
    ensures forall j: Jurisdiction :: |GetLegalSourcesByJurisdiction(j)| == 2
  {
    forall j: Jurisdiction
      ensures |GetLegalSourcesByJurisdiction(j)| == 2
    {
      SourcesOf(j);
    }
  }

  /** The records of one jurisdiction, in table order. */
  lemma SourcesOf(j: Jurisdiction)
    ensures GetLegalSourcesByJurisdiction(j) ==
      match j
      case CH => [ChDpa1, ChDpa2]
      case EU => [EuGdpr1, EuGdpr2]
      case UK => [UkDpa1, UkDpa2]
  {
    var t := LegalSources;
    assert t == [t[0], t[1]] + ([t[2], t[3]] + [t[4], t[5]]);
    ByJurisdictionKeepsOrder([t[0], t[1]], [t[2], t[3]] + [t[4], t[5]], j);
    ByJurisdictionKeepsOrder([t[2], t[3]], [t[4], t[5]], j);
    PairByJurisdiction(t[0], t[1], j);
    PairByJurisdiction(t[2], t[3], j);
    PairByJurisdiction(t[4], t[5], j);
  }

  /** Filtering a two-record table whose records share a jurisdiction keeps
      both or neither. */
  lemma PairByJurisdiction(x: LegalSource, y: LegalSource, j: Jurisdiction)
    requires x.jurisdiction == y.jurisdiction
    ensures ByJurisdiction([x, y], j) == if x.jurisdiction == j then [x, y] else []
  {
    var keep := (s: LegalSource) => s.jurisdiction == j;
    assert [x, y][1..] == [y];
    assert [y][1..] == [];
    assert Filter([y], keep) == (if keep(y) then [y] else []) + Filter([], keep);
    assert Filter([x, y], keep) == (if keep(x) then [x] else []) + Filter([y], keep);
  }

  // ---------------------------------------------------------------------
  // Search
  // ---------------------------------------------------------------------

  /** A record matches an already lower-cased query when its lower-cased
      title, excerpt or reference contains it.  The id, url and full text
      are not looked at. */
  predicate SourceMatches(s: LegalSource, lowerQuery: string)
  {
    Includes(ToLower(s.title), lowerQuery)
    || Includes(ToLower(s.excerpt), lowerQuery)
    || Includes(ToLower(s.reference), lowerQuery)
  }

  /** The records of `table` that the query matches, case-insensitively, in
      table order. */
  function Search(table: seq<LegalSource>, query: string): (r: seq<LegalSource>)
    ensures forall i :: 0 <= i < |r| ==> r[i] in table && SourceMatches(r[i], ToLower(query))
    ensures forall i :: 0 <= i < |table| && SourceMatches(table[i], ToLower(query)) ==> table[i] in r
  {
    var lowerQuery := ToLower(query);
    FilterMembers(table, (s: LegalSource) => SourceMatches(s, lowerQuery));
    Filter(table, (s: LegalSource) => SourceMatches(s, lowerQuery))
  }

  /** `searchLegalSources`. */
  function SearchLegalSources(query: string): (r: seq<LegalSource>)
    ensures forall i :: 0 <= i < |r| ==> r[i] in LegalSources && SourceMatches(r[i], ToLower(query))
    ensures forall i :: 0 <= i < |LegalSources| && SourceMatches(LegalSources[i], ToLower(query)) ==> LegalSources[i] in r
  {
    Search(LegalSources, query)
  }

  /** Search keeps table order. */
  lemma SearchKeepsOrder(a: seq<LegalSource>, b: seq<LegalSource>, query: string)
    ensures Search(a + b, query) == Search(a, query) + Search(b, query)
  {
    var lowerQuery := ToLower(query);
    FilterAppend(a, b, (s: LegalSource) => SourceMatches(s, lowerQuery));
  }

  /** The empty query is contained in every string, so it returns the whole
      table. */
  lemma SearchEmptyQuery(table: seq<LegalSource>)
    ensures Search(table, "") == table
  {
    forall i | 0 <= i < |table|
      ensures SourceMatches(table[i], ToLower(""))
    {
      IncludesEmpty(ToLower(table[i].title));
    }
    FilterKeepsAll(table, (s: LegalSource) => SourceMatches(s, ToLower("")));
  }

  /** The query's letter case does not matter. */
  lemma SearchIgnoresCase(table: seq<LegalSource>, query: string)
    ensures Search(table, query) == Search(table, ToLower(query))
  {
    ToLowerIdempotent(query);
  }

  /** The same record with its id, url and full text blanked out. */
  function Visible(s: LegalSource): (v: LegalSource)
    ensures v.jurisdiction == s.jurisdiction && v.title == s.title
    ensures v.reference == s.reference && v.excerpt == s.excerpt
    ensures v.id == "" && v.url == "" && v.fullText == None
  {
    s.(id := "", url := "", fullText := None)
  }

  /** Id, url and full text never affect the search: searching the blanked
      table finds the blanked versions of exactly the records the search of
      the full table finds, in the same order. */
  lemma SearchIgnoresHiddenFields(table: seq<LegalSource>, query: string)
    ensures Search(Map(table, Visible), query) == Map(Search(table, query), Visible)
  {
    var lowerQuery := ToLower(query);
    var keep := (s: LegalSource) => SourceMatches(s, lowerQuery);
    FilterMap(table, Visible, keep, keep);
    assert Search(Map(table, Visible), query) == Filter(Map(table, Visible), keep);
    assert Search(table, query) == Filter(table, keep);
  }
}

=== FILE: page.dfy ===
/** The page logic of src/app/page.tsx: the state the page keeps, the
    validation and assembly done by `handleSearch`, and the selection
    toggle `handleJurisdictionToggle`.  The processing delay is left out:
    a search is the synchronous part before the delay (`BeginSearch`)
    followed by the part after it (`FinishSearch`); the generated id and
    the clock readings are parameters. */
module Page {
  import opened Types
  import opened Text
  import opened Seqs
  import MockAiResponses
  import JurisdictionSelector
  import QueryInput

  const EmptyQueryError: string := "Please enter a legal query"
  const TooFewError: string := "Please select at least 2 jurisdictions to compare"

  /** The four pieces of React state the page holds. */
  datatype PageState = PageState(
    selected: seq<Jurisdiction>,
    loading: bool,
    result: Option<ComparisonResult>,
    error: Option<string>
  )

  /** The page as first rendered: Switzerland and the EU selected. */
  const Initial: PageState := PageState([CH, EU], false, None, None)

  // ---------------------------------------------------------------------
  // Search
  // ---------------------------------------------------------------------

  /** The two guards of `handleSearch`, in their order: a blank query is
      reported before a short selection. */
  function Validate(query: string, selected: seq<Jurisdiction>): (err: Option<string>)
    ensures err == Some(EmptyQueryError) <==> IsBlank(query)
    ensures err == Some(TooFewError) <==> !IsBlank(query) && |selected| < 2
    ensures err.None? <==> !IsBlank(query) && |selected| >= 2
  {
    TrimEmptyIffBlank(query);
    if Trim(query) == [] then Some(EmptyQueryError)
    else if |selected| < 2 then Some(TooFewError)
    else None
  }

  /** What `handleSearch` does before the delay.  A rejected query only
      sets the error, so an earlier result stays on the page; an accepted
      one clears the error and the result and turns loading on. */
  function BeginSearch(s: PageState, query: string): (t: PageState)
    ensures t.selected == s.selected
    ensures Validate(query, s.selected).Some? ==>
      t.error == Validate(query, s.selected) && t.result == s.result && t.loading == s.loading
    ensures Validate(query, s.selected).None? ==> t.error.None? && t.result.None? && t.loading
  {
    match Validate(query, s.selected)
    case Some(message) => s.(error := Some(message))
    case None => s.(error := None, loading := true, result := None)
  }

  /** The result of a query: the canned answer of its topic joined with the
      query as typed, the selection it was submitted with, and the
      caller-supplied id and clock readings.  Streaming has not finished. */
  function Assemble(query: string, selected: seq<Jurisdiction>, id: string, timestamp: int, createdAt: int)
    : (r: ComparisonResult)
    ensures r.response in MockAiResponses.MockComparisons.Values
    ensures r.response == MockAiResponses.MockComparisons[MockAiResponses.FindBestMatch(query)]
    ensures r.query.text == query && r.query.jurisdictions == selected && r.query.timestamp == timestamp
    ensures r.id == id && r.createdAt == createdAt && !r.streamingComplete
  {
    MockAiResponses.MatchedTopicHasEntry(query);
    var response := MockAiResponses.GetComparisonResponse(MockAiResponses.FindBestMatch(query));
    ComparisonResult(response, id, ComparisonQuery(query, selected, timestamp), createdAt, false)
  }

  /** What `handleSearch` does after the delay: the result, assembled with
      the selection captured when the search began, replaces the page's
      result and loading ends. */
  function FinishSearch(t: PageState, query: string, submitted: seq<Jurisdiction>, id: string, timestamp: int, createdAt: int)
    : (u: PageState)
    ensures u.selected == t.selected && u.error == t.error && !u.loading
    ensures u.result == Some(Assemble(query, submitted, id, timestamp, createdAt))
  {
    t.(result := Some(Assemble(query, submitted, id, timestamp, createdAt)), loading := false)
  }

  /** A whole search with nothing happening during the delay. */
  function HandleSearch(s: PageState, query: string, id: string, timestamp: int, createdAt: int): (u: PageState)
    ensures u.selected == s.selected
    ensures IsBlank(query) ==> u == s.(error := Some(EmptyQueryError))
    ensures !IsBlank(query) && |s.selected| < 2 ==> u == s.(error := Some(TooFewError))
    ensures !IsBlank(query) && |s.selected| >= 2 ==>
      u.error.None? && !u.loading && u.result.Some?
      && u.result.value.response == MockAiResponses.GetComparisonResponse(MockAiResponses.FindBestMatch(query))
      && u.result.value.query == ComparisonQuery(query, s.selected, timestamp)
      && u.result.value.id == id && u.result.value.createdAt == createdAt
      && !u.result.value.streamingComplete
  {
    var t := BeginSearch(s, query);
    if Validate(query, s.selected).Some? then t
    else FinishSearch(t, query, s.selected, id, timestamp, createdAt)
  }

  /** Whatever the submit button of the query form lets through passes the
      page's own guards. */
  lemma EnabledSubmitIsAccepted(loading: bool, query: string, selected: seq<Jurisdiction>)
    requires !QueryInput.SubmitDisabled(loading, query, selected)
    ensures QueryInput.HandleSubmit(query, loading) == Some(query)
    ensures Validate(query, selected).None?
  {
    QueryInput.EnabledSubmitSends(loading, query, selected);
  }

  // ---------------------------------------------------------------------
  // Selection
  // ---------------------------------------------------------------------

  /** `handleJurisdictionToggle`: a selected code is removed unless only
      two codes are selected; an unselected code is appended. */
  function Toggle(prev: seq<Jurisdiction>, j: Jurisdiction): (next: seq<Jurisdiction>)
    ensures forall x :: x != j ==> (x in next <==> x in prev)
    ensures j in next <==> j !in prev || |prev| <= 2
  {
    FilterMembers(prev, (x: Jurisdiction) => x != j);
    if j in prev then
      if |prev| <= 2 then prev else Filter(prev, (x: Jurisdiction) => x != j)
    else prev + [j]
  }

  /** What the page keeps the selection to: two or three codes, none twice. */
  predicate ValidSelection(selected: seq<Jurisdiction>)
  {
    2 <= |selected| <= 3 && JurisdictionSelector.Distinct(selected)
  }

  /** With two selected codes, removing one is refused. */
  lemma ToggleFloor(prev: seq<Jurisdiction>, j: Jurisdiction)
    requires j in prev && |prev| <= 2
    ensures Toggle(prev, j) == prev
  {
  }

  /** Removing a code from a longer selection without repeats cuts out
      exactly its one position and keeps the order of the rest. */
  lemma ToggleRemoves(prev: seq<Jurisdiction>, i: nat)
    requires JurisdictionSelector.Distinct(prev) && i < |prev| && |prev| > 2
    ensures Toggle(prev, prev[i]) == prev[..i] + prev[i + 1..]
  {
    var j := prev[i];
    FilterDropsOne(prev, i, (x: Jurisdiction) => x != j);
  }

  /** Adding a code to a selection without repeats lists it once, last. */
  lemma ToggleAppends(prev: seq<Jurisdiction>, j: Jurisdiction)
    requires JurisdictionSelector.Distinct(prev) && j !in prev
    ensures JurisdictionSelector.Distinct(Toggle(prev, j))
    ensures |Toggle(prev, j)| == |prev| + 1 && Toggle(prev, j)[|prev|] == j
    ensures Toggle(prev, j) == prev + [j]
  {
  }

  /** Every toggle keeps the selection valid. */
  lemma ToggleKeepsValid(prev: seq<Jurisdiction>, j: Jurisdiction)
    requires ValidSelection(prev)
    ensures ValidSelection(Toggle(prev, j))
  {
    if j in prev {
      if |prev| > 2 {
        var i :| 0 <= i < |prev| && prev[i] == j;
        ToggleRemoves(prev, i);
        CutKeepsDistinct(prev, i);
      }
    } else {
      JurisdictionSelector.DistinctBounds(prev);
      ToggleAppends(prev, j);
    }
  }

  /** Cutting one position out of a sequence without repeats leaves one
      without repeats. */
  lemma CutKeepsDistinct(xs: seq<Jurisdiction>, i: nat)
    requires JurisdictionSelector.Distinct(xs) && i < |xs|
    ensures JurisdictionSelector.Distinct(xs[..i] + xs[i + 1..])
  {
    var ys := xs[..i] + xs[i + 1..];
    forall a, b | 0 <= a < b < |ys|
      ensures ys[a] != ys[b]
    {
      var a' := if a < i then a else a + 1;
      var b' := if b < i then b else b + 1;
      assert ys[a] == xs[a'] && ys[b] == xs[b'];
    }
  }

  /** A click on the selector's button for `j`: forwarded to the toggle
      unless the button is disabled. */
  function Click(selected: seq<Jurisdiction>, j: Jurisdiction): (next: seq<Jurisdiction>)
    ensures JurisdictionSelector.IsDisabled(selected, j) ==> next == selected
    ensures !JurisdictionSelector.IsDisabled(selected, j) ==> next == Toggle(selected, j)
  {
    match JurisdictionSelector.OnClick(selected, j)
    case None => selected
    case Some(k) => Toggle(selected, k)
  }

  /** A series of clicks, first to last.  A code whose button is never
      clicked is selected at the end exactly when it was at the start. */
  function Clicks(selected: seq<Jurisdiction>, js: seq<Jurisdiction>): (last: seq<Jurisdiction>)
    ensures forall x :: x !in js ==> (x in last <==> x in selected)
    decreases |js|
  {
    if js == [] then selected
    else
      var last := Clicks(Click(selected, js[0]), js[1..]);
      assert forall x :: x !in js ==> x != js[0] && x !in js[1..];
      last
  }

  /** Clicks keep a valid selection valid. */
  lemma {:induction false} ClicksKeepValid(selected: seq<Jurisdiction>, js: seq<Jurisdiction>)
    requires ValidSelection(selected)
    ensures ValidSelection(Clicks(selected, js))
    decreases |js|
  {
    if js != [] {
      ToggleKeepsValid(selected, js[0]);
      ClicksKeepValid(Click(selected, js[0]), js[1..]);
    }
  }

  /** Every selection the page can reach holds two or three different
      codes, so the "select at least 2" error can never be raised. */
  lemma ReachableSelections(js: seq<Jurisdiction>)
    ensures ValidSelection(Clicks(Initial.selected, js))
    ensures forall query :: Validate(query, Clicks(Initial.selected, js)) != Some(TooFewError)
  {
    ClicksKeepValid(Initial.selected, js);
  }

  // ---------------------------------------------------------------------
  // Example queries
  // ---------------------------------------------------------------------

  const GdprExample: string :=
    "Compare " + "GDPR" + " Article 6" + " with " + "Swiss" + " Federal" + " Data" + " Protection" + " Act"
  const BreachExample: string :=
    "What are " + "the data " + "breach" + " " + "notification" + " requirements" + " in EU vs" + " Switzerland?"
  const TransferExample: string :=
    "Analyze " + "cross-border" + " data" + " transfer" + " rules: " + "EU-Swiss" + " framework"
  const ContractExample: string :=
    ContractHead + " " + ContractMiddle + " " + ContractRequirements + " " + ContractTail
  const ContractHead: string := "Compare " + "contract"
  const ContractMiddle: string := "formation"
  const ContractRequirements: string := "requirements:" + " Swiss OR vs"
  const ContractTail: string := "French" + " Code Civil"

  const Examples: seq<string> := [GdprExample, BreachExample, TransferExample, ContractExample]

  /** The four examples on the page lead to four different topics, none of
      them the fallback. */
  lemma ExampleTopics()
    ensures MockAiResponses.FindBestMatch(Examples[0]) == MockAiResponses.GdprSwissKey
    ensures MockAiResponses.FindBestMatch(Examples[1]) == MockAiResponses.BreachNotificationKey
    ensures MockAiResponses.FindBestMatch(Examples[2]) == MockAiResponses.CrossBorderTransferKey
    ensures MockAiResponses.FindBestMatch(Examples[3]) == MockAiResponses.ContractFormationKey
    ensures forall a, b :: 0 <= a < b < |Examples| ==>
      MockAiResponses.FindBestMatch(Examples[a]) != MockAiResponses.FindBestMatch(Examples[b])
    ensures forall a :: 0 <= a < |Examples| ==>
      MockAiResponses.FindBestMatch(Examples[a]) != MockAiResponses.DefaultKey
  {
    GdprExampleTopic();
    BreachExampleTopic();
    TransferExampleTopic();
    ContractExampleTopic();
  }

  lemma GdprExampleTopic()
    ensures MockAiResponses.FindBestMatch(GdprExample) == MockAiResponses.GdprSwissKey
  {
    GdprExampleGdpr();
    GdprExampleSwiss();
  }

  lemma GdprExampleGdpr()
    ensures Includes(ToLower(GdprExample), "gdpr")
  {
    assert ToLower("GDPR") == "gdpr";
    var post := " Article 6" + " with " + "Swiss" + " Federal" + " Data" + " Protection" + " Act";
    KeywordIn("Compare ", "GDPR", post, "gdpr");
    assert GdprExample == "Compare " + "GDPR" + post;
  }

  lemma GdprExampleSwiss()
    ensures Includes(ToLower(GdprExample), "swiss")
  {
    assert ToLower("Swiss") == "swiss";
    var post := " Federal" + " Data" + " Protection" + " Act";
    KeywordIn("Compare " + "GDPR" + " Article 6" + " with ", "Swiss", post, "swiss");
    assert GdprExample == "Compare " + "GDPR" + " Article 6" + " with " + "Swiss" + post;
  }

  lemma BreachExampleTopic()
    ensures MockAiResponses.FindBestMatch(BreachExample) == MockAiResponses.BreachNotificationKey
  {
    BreachExampleNoGdpr();
    BreachExampleBreach();
    BreachExampleNotification();
  }

  lemma BreachExampleNoGdpr()
    ensures !Includes(ToLower(BreachExample), "gdpr")
  {
    NotIncludesLowered(BreachExample, "gdpr", 'g');
  }

  lemma BreachExampleBreach()
    ensures Includes(ToLower(BreachExample), "breach")
  {
    assert ToLower("breach") == "breach";
    var post := " " + "notification" + " requirements" + " in EU vs" + " Switzerland?";
    KeywordIn("What are " + "the data ", "breach", post, "breach");
    assert BreachExample == "What are " + "the data " + "breach" + post;
  }

  lemma BreachExampleNotification()
    ensures Includes(ToLower(BreachExample), "notification")
  {
    assert ToLower("notification") == "notification";
    var post := " requirements" + " in EU vs" + " Switzerland?";
    KeywordIn("What are " + "the data " + "breach" + " ", "notification", post, "notification");
    assert BreachExample == "What are " + "the data " + "breach" + " " + "notification" + post;
  }

  lemma TransferExampleTopic()
    ensures MockAiResponses.FindBestMatch(TransferExample) == MockAiResponses.CrossBorderTransferKey
  {
    TransferExampleNoGdpr();
    TransferExampleNoBreach();
    TransferExampleCrossBorder();
  }

  lemma TransferExampleNoGdpr()
    ensures !Includes(ToLower(TransferExample), "gdpr")
  {
    NotIncludesLowered(TransferExample, "gdpr", 'g');
  }

  lemma TransferExampleNoBreach()
    ensures !Includes(ToLower(TransferExample), "breach")
  {
    NotIncludesLowered(TransferExample, "breach", 'h');
  }

  lemma TransferExampleCrossBorder()
    ensures Includes(ToLower(TransferExample), "cross-border")
  {
    assert ToLower("cross-border") == "cross-border";
    var post := " data" + " transfer" + " rules: " + "EU-Swiss" + " framework";
    KeywordIn("Analyze ", "cross-border", post, "cross-border");
    assert TransferExample == "Analyze " + "cross-border" + post;
  }

  lemma ContractExampleTopic()
    ensures MockAiResponses.FindBestMatch(ContractExample) == MockAiResponses.ContractFormationKey
  {
    ContractExampleNoGdpr();
    ContractExampleNoBreach();
    ContractExampleNoCrossBorder();
    ContractExampleNoTransfer();
    ContractExampleContract();
    ContractExampleFrench();
  }

  lemma ContractExampleNoGdpr()
    ensures !Includes(ToLower(ContractExample), "gdpr")
  {
    ContractExampleLacks('g');
    NotIncludesMissingChar(ToLower(ContractExample), "gdpr", 'g');
  }

  lemma ContractExampleNoBreach()
    ensures !Includes(ToLower(ContractExample), "breach")
  {
    ContractExampleNoB();
    NotIncludesMissingChar(ToLower(ContractExample), "breach", 'b');
  }

  lemma ContractExampleNoCrossBorder()
    ensures !Includes(ToLower(ContractExample), "cross-border")
  {
    ContractExampleNoB();
    NotIncludesMissingChar(ToLower(ContractExample), "cross-border", 'b');
  }

  lemma ContractExampleNoB()
    ensures 'b' !in ToLower(ContractExample)
  {
    ContractExampleLacks('b');
  }

  /** A lower-case letter that no word group holds, in either case, is
      missing from the lowered example. */
  lemma ContractExampleLacks(c: char)
    requires IsLower(c)
    requires c !in ContractHead && UpperChar(c) !in ContractHead
    requires c !in ContractMiddle && UpperChar(c) !in ContractMiddle
    requires c !in ContractRequirements && UpperChar(c) !in ContractRequirements
    requires c !in ContractTail && UpperChar(c) !in ContractTail
    ensures c !in ToLower(ContractExample)
  {
    AbsentAfterLowering(ContractExample, c);
  }

  /** Every letter of "transfer" occurs in the example, so the absence is
      shown word group by word group: no group holds the keyword and the
      spaces between them cannot be part of it. */
  lemma ContractExampleNoTransfer()
    ensures !Includes(ToLower(ContractExample), "transfer")
  {
    ContractHeadNoTransfer();
    ContractMiddleNoTransfer();
    ContractRequirementsNoTransfer();
    ContractTailNoTransfer();
    SpacedGroupsNoKeyword(ContractHead, ContractMiddle, ContractRequirements, ContractTail, "transfer");
  }

  lemma ContractHeadNoTransfer()
    ensures !Includes(ToLower(ContractHead), "transfer")
  {
    NotIncludesLowered(ContractHead, "transfer", 'f');
  }

  lemma ContractMiddleNoTransfer()
    ensures !Includes(ToLower(ContractMiddle), "transfer")
  {
    NotIncludesLowered(ContractMiddle, "transfer", 's');
  }

  lemma ContractRequirementsNoTransfer()
    ensures !Includes(ToLower(ContractRequirements), "transfer")
  {
    NotIncludesLowered(ContractRequirements, "transfer", 'f');
  }

  lemma ContractTailNoTransfer()
    ensures !Includes(ToLower(ContractTail), "transfer")
  {
    NotIncludesLowered(ContractTail, "transfer", 't');
  }

  /** A keyword without spaces that none of four groups holds is not in
      the groups joined by single spaces. */
  lemma SpacedGroupsNoKeyword(a: string, b: string, c: string, d: string, kw: string)
    requires ' ' !in kw
    requires !Includes(ToLower(a), kw) && !Includes(ToLower(b), kw)
    requires !Includes(ToLower(c), kw) && !Includes(ToLower(d), kw)
    ensures !Includes(ToLower(a + " " + b + " " + c + " " + d), kw)
  {
    assert " " == [' '];
    NotIncludesLoweredAcross(a, ' ', b, kw);
    NotIncludesLoweredAcross(a + " " + b, ' ', c, kw);
    NotIncludesLoweredAcross(a + " " + b + " " + c, ' ', d, kw);
  }

  lemma ContractExampleContract()
    ensures Includes(ToLower(ContractExample), "contract")
  {
    assert ToLower("contract") == "contract";
    var post := " " + ContractMiddle + " " + ContractRequirements + " " + ContractTail;
    KeywordIn("Compare ", "contract", post, "contract");
    assert ContractExample == "Compare " + "contract" + post;
  }

  lemma ContractExampleFrench()
    ensures Includes(ToLower(ContractExample), "french")
  {
    assert ToLower("French") == "french";
    var pre := ContractHead + " " + ContractMiddle + " " + ContractRequirements + " ";
    KeywordIn(pre, "French", " Code Civil", "french");
    assert ContractExample == pre + "French" + " Code Civil";
  }

  // ---------------------------------------------------------------------
  // Scenarios
  // ---------------------------------------------------------------------

  /** The first example, submitted with the initial selection, yields the
      GDPR/Swiss answer with its five differences, tagged with CH and EU. */
  lemma GdprScenario(id: string, timestamp: int, createdAt: int)
    ensures var u := HandleSearch(Initial, GdprExample, id, timestamp, createdAt);
      u.error.None? && u.result.Some?
      && u.result.value.query.jurisdictions == [CH, EU]
      && u.result.value.response == MockAiResponses.GdprSwissResponse
      && |u.result.value.response.keyDifferences| == 5
  {
    GdprExampleNotBlank();
    GdprExampleTopic();
    MockAiResponses.GdprSwissEntry();
  }

  lemma GdprExampleNotBlank()
    ensures !IsBlank(GdprExample)
  {
    assert !IsSpace(GdprExample[0]);
  }

  /** "Switzerland" does not contain "swiss", so a query naming GDPR and
      Switzerland together with a breach notification falls to the breach
      rule rather than to the GDPR/Swiss rule. */
  const SwitzerlandQuery: string :=
    "Compare " + "GDPR" + " " + "breach" + " " + "notification" + " in" + " " + "Swi" + "t" + "zerland"

  lemma SwitzerlandIsNotSwiss()
    ensures MockAiResponses.FindBestMatch(SwitzerlandQuery) == MockAiResponses.BreachNotificationKey
  {
    SwitzerlandQueryNoSwiss();
    SwitzerlandQueryBreach();
    SwitzerlandQueryNotification();
  }

  lemma SwitzerlandQueryNoSwiss()
    ensures !Includes(ToLower(SwitzerlandQuery), "swiss")
  {
    var a := "Compare " + "GDPR" + " " + "breach" + " " + "notification" + " in";
    SwitzerlandQueryHeadNoSwiss();
    SwitzerlandNoSwiss();
    NotIncludesLoweredAcross(a, ' ', "Swi" + ['t'] + "zerland", "swiss");
    assert SwitzerlandQuery == a + [' '] + ("Swi" + ['t'] + "zerland");
  }

  lemma SwitzerlandQueryHeadNoSwiss()
    ensures !Includes(ToLower("Compare " + "GDPR" + " " + "breach" + " " + "notification" + " in"), "swiss")
  {
    NotIncludesLowered("Compare " + "GDPR" + " " + "breach" + " " + "notification" + " in", "swiss", 'w');
  }

  /** The only 's' of "Switzerland" is its first letter. */
  lemma SwitzerlandNoSwiss()
    ensures !Includes(ToLower("Swi" + ['t'] + "zerland"), "swiss")
  {
    NotIncludesLowered("zerland", "swiss", 's');
    assert !Includes(ToLower("Swi"), "swiss");
    NotIncludesLoweredAcross("Swi", 't', "zerland", "swiss");
  }

  lemma SwitzerlandQueryBreach()
    ensures Includes(ToLower(SwitzerlandQuery), "breach")
  {
    assert ToLower("breach") == "breach";
    var post := " " + "notification" + " in" + " " + "Swi" + "t" + "zerland";
    KeywordIn("Compare " + "GDPR" + " ", "breach", post, "breach");
    assert SwitzerlandQuery == "Compare " + "GDPR" + " " + "breach" + post;
  }

  lemma SwitzerlandQueryNotification()
    ensures Includes(ToLower(SwitzerlandQuery), "notification")
  {
    assert ToLower("notification") == "notification";
    var post := " in" + " " + "Swi" + "t" + "zerland";
    KeywordIn("Compare " + "GDPR" + " " + "breach" + " ", "notification", post, "notification");
    assert SwitzerlandQuery == "Compare " + "GDPR" + " " + "breach" + " " + "notification" + post;
  }
}

=== FILE: query_input.dfy ===
/** The query form of src/components/query-input.tsx: the submit guard,
    the submit button's disabled condition and the example buttons.  The
    character counter shows `|query|` against 500 but nothing enforces that
    bound, so the model places no limit on the query. */
module QueryInput {
  import opened Types
  import opened Text
  import MockAiResponses

  /** `handleSubmit`: the form forwards the query as typed, untrimmed,
      when it holds a non-space character and no search is running;
      otherwise nothing is sent. */
  function HandleSubmit(query: string, loading: bool): (sent: Option<string>)
    ensures sent.Some? <==> !IsBlank(query) && !loading
    ensures sent.Some? ==> sent.value == query
  {
    TrimEmptyIffBlank(query);
    if Trim(query) != [] && !loading then Some(query) else None
  }

  /** The submit button is disabled while loading, for a blank query, and
      while fewer than two jurisdictions are selected. */
  function SubmitDisabled(loading: bool, query: string, selected: seq<Jurisdiction>): (disabled: bool)
    ensures disabled <==> loading || IsBlank(query) || |selected| < 2
  {
    TrimEmptyIffBlank(query);
    loading || Trim(query) == [] || |selected| < 2
  }

  /** An enabled submit button always sends the query. */
  lemma EnabledSubmitSends(loading: bool, query: string, selected: seq<Jurisdiction>)
    requires !SubmitDisabled(loading, query, selected)
    ensures HandleSubmit(query, loading) == Some(query)
  {
  }

  // ---------------------------------------------------------------------
  // Example queries
  // ---------------------------------------------------------------------

  const GdprExample: string := "Compare " + "GDPR" + " with " + "Swiss" + " data" + " protection"
  const BreachExample: string := "Data " + "breach" + " " + "notification" + " requirements"
  const TransferExample: string := "Cross-border" + " data" + " transfer" + " rules"

  const ExampleQueries: seq<string> := [GdprExample, BreachExample, TransferExample]

  /** `exampleQueries.slice(0, 2)`: the queries offered as buttons. */
  function ExampleButtons(): (shown: seq<string>)
    ensures shown == [GdprExample, BreachExample]
  {
    ExampleQueries[..2]
  }

  /** Clicking example button `idx` replaces the query with that example;
      the buttons are disabled while a search runs, so the query is kept. */
  function ClickExample(query: string, idx: nat, loading: bool): (next: string)
    requires idx < |ExampleButtons()|
    ensures loading ==> next == query
    ensures !loading ==> next == ExampleQueries[idx]
    ensures !loading ==> next in ExampleQueries[..2] && next != ExampleQueries[2]
    ensures !loading ==> HandleSubmit(next, false) == Some(next)
  {
    if loading then query
    else
      assert !IsSpace(GdprExample[0]) && !IsSpace(BreachExample[0]);
      ExampleButtons()[idx]
  }

  /** Each example query leads to its own topic. */
  lemma ExampleTopics()
    ensures MockAiResponses.FindBestMatch(GdprExample) == MockAiResponses.GdprSwissKey
    ensures MockAiResponses.FindBestMatch(BreachExample) == MockAiResponses.BreachNotificationKey
    ensures MockAiResponses.FindBestMatch(TransferExample) == MockAiResponses.CrossBorderTransferKey
  {
    GdprExampleTopic();
    BreachExampleTopic();
    TransferExampleTopic();
  }

  lemma GdprExampleTopic()
    ensures MockAiResponses.FindBestMatch(GdprExample) == MockAiResponses.GdprSwissKey
  {
    GdprExampleGdpr();
    GdprExampleSwiss();
  }

  lemma GdprExampleGdpr()
    ensures Includes(ToLower(GdprExample), "gdpr")
  {
    assert ToLower("GDPR") == "gdpr";
    KeywordIn("Compare ", "GDPR", " with " + "Swiss" + " data" + " protection", "gdpr");
    assert GdprExample == "Compare " + "GDPR" + (" with " + "Swiss" + " data" + " protection");
  }

  lemma GdprExampleSwiss()
    ensures Includes(ToLower(GdprExample), "swiss")
  {
    assert ToLower("Swiss") == "swiss";
    KeywordIn("Compare " + "GDPR" + " with ", "Swiss", " data" + " protection", "swiss");
    assert GdprExample == "Compare " + "GDPR" + " with " + "Swiss" + (" data" + " protection");
  }

  lemma BreachExampleTopic()
    ensures MockAiResponses.FindBestMatch(BreachExample) == MockAiResponses.BreachNotificationKey
  {
    BreachExampleNoGdpr();
    BreachExampleBreach();
    BreachExampleNotification();
  }

  lemma BreachExampleNoGdpr()
    ensures !Includes(ToLower(BreachExample), "gdpr")
  {
    NotIncludesLowered(BreachExample, "gdpr", 'g');
  }

  lemma BreachExampleBreach()
    ensures Includes(ToLower(BreachExample), "breach")
  {
    assert ToLower("breach") == "breach";
    KeywordIn("Data ", "breach", " " + "notification" + " requirements", "breach");
    assert BreachExample == "Data " + "breach" + (" " + "notification" + " requirements");
  }

  lemma BreachExampleNotification()
    ensures Includes(ToLower(BreachExample), "notification")
  {
    assert ToLower("notification") == "notification";
    KeywordIn("Data " + "breach" + " ", "notification", " requirements", "notification");
  }

  lemma TransferExampleTopic()
    ensures MockAiResponses.FindBestMatch(TransferExample) == MockAiResponses.CrossBorderTransferKey
  {
    TransferExampleNoGdpr();
    TransferExampleNoBreach();
    TransferExampleCrossBorder();
  }

  lemma TransferExampleNoGdpr()
    ensures !Includes(ToLower(TransferExample), "gdpr")
  {
    NotIncludesLowered(TransferExample, "gdpr", 'g');
  }

  lemma TransferExampleNoBreach()
    ensures !Includes(ToLower(TransferExample), "breach")
  {
    NotIncludesLowered(TransferExample, "breach", 'h');
  }

  lemma TransferExampleCrossBorder()
    ensures Includes(ToLower(TransferExample), "cross-border")
  {
    assert ToLower("Cross-border") == "cross-border";
    var post := " data" + " transfer" + " rules";
    KeywordIn("", "Cross-border", post, "cross-border");
    assert TransferExample == "" + "Cross-border" + post;
  }
}

=== FILE: seqs.dfy ===
/** The array built-ins the application leans on: `filter`, `map` and
    `find`, on immutable sequences. */
module Seqs {
  import opened Types

  /** `xs.filter(keep)`: the kept elements, in their original order. */
  function Filter<T>(xs: seq<T>, keep: T -> bool): (r: seq<T>)
    ensures |r| <= |xs|
    ensures forall i :: 0 <= i < |r| ==> keep(r[i])
    decreases |xs|
  {
    if xs == [] then []
    else (if keep(xs[0]) then [xs[0]] else []) + Filter(xs[1..], keep)
  }

  /** The filter returns elements of `xs` only and misses none that
      `keep` accepts. */
  lemma {:induction false} FilterMembers<T>(xs: seq<T>, keep: T -> bool)
    ensures forall i :: 0 <= i < |Filter(xs, keep)| ==> Filter(xs, keep)[i] in xs
    ensures forall i :: 0 <= i < |xs| && keep(xs[i]) ==> xs[i] in Filter(xs, keep)
    decreases |xs|
  {
    if xs != [] {
      FilterMembers(xs[1..], keep);
      var head := if keep(xs[0]) then [xs[0]] else [];
      var rest := Filter(xs[1..], keep);
      assert Filter(xs, keep) == head + rest;
      forall i | 0 <= i < |xs| && keep(xs[i])
        ensures xs[i] in Filter(xs, keep)
      {
        if i > 0 {
          assert xs[i] == xs[1..][i - 1];
        }
      }
    }
  }

  /** Filtering distributes over concatenation: elements keep their
      relative order and are never moved across each other. */
  lemma {:induction false} FilterAppend<T>(a: seq<T>, b: seq<T>, keep: T -> bool)
    ensures Filter(a + b, keep) == Filter(a, keep) + Filter(b, keep)
    decreases |a|
  {
    if a == [] {
      assert a + b == b;
    } else {
      assert (a + b)[1..] == a[1..] + b;
      FilterAppend(a[1..], b, keep);
    }
  }

  /** A filter that keeps every element returns the sequence itself. */
  lemma {:induction false} FilterKeepsAll<T>(xs: seq<T>, keep: T -> bool)
    requires forall i :: 0 <= i < |xs| ==> keep(xs[i])
    ensures Filter(xs, keep) == xs
    decreases |xs|
  {
    if xs != [] {
      FilterKeepsAll(xs[1..], keep);
    }
  }

  /** A filter that drops exactly the element at `i` cuts out that one
      position. */
  lemma {:induction false} FilterDropsOne<T>(xs: seq<T>, i: nat, keep: T -> bool)
    requires i < |xs| && !keep(xs[i])
    requires forall k :: 0 <= k < |xs| && k != i ==> keep(xs[k])
    ensures Filter(xs, keep) == xs[..i] + xs[i + 1..]
    decreases i
  {
    var rest := xs[1..];
    forall k | 0 <= k < |rest| && k != i - 1
      ensures keep(rest[k])
    {
      assert rest[k] == xs[k + 1];
    }
    if i == 0 {
      FilterKeepsAll(rest, keep);
    } else {
      FilterDropsOne(rest, i - 1, keep);
      assert xs[..i] == [xs[0]] + rest[..i - 1];
      assert xs[i + 1..] == rest[i..];
    }
  }

  /** `xs.map(f)`. */
  function Map<A, B>(xs: seq<A>, f: A -> B): (r: seq<B>)
    ensures |r| == |xs|
    ensures forall i :: 0 <= i < |xs| ==> r[i] == f(xs[i])
  {
    seq(|xs|, i requires 0 <= i < |xs| => f(xs[i]))
  }

  /** Mapping before filtering is filtering on the mapped value and mapping
      afterwards: `before` decides on an original element what `keep`
      decides on its image. */
  lemma {:induction false} FilterMap<A, B>(xs: seq<A>, f: A -> B, keep: B -> bool, before: A -> bool)
    requires forall i :: 0 <= i < |xs| ==> before(xs[i]) == keep(f(xs[i]))
    ensures Filter(Map(xs, f), keep) == Map(Filter(xs, before), f)
    decreases |xs|
  {
    if xs != [] {
      assert Map(xs, f)[1..] == Map(xs[1..], f);
      FilterMap(xs[1..], f, keep, before);
      var rest := Filter(xs[1..], before);
      if before(xs[0]) {
        assert Map([xs[0]] + rest, f) == [f(xs[0])] + Map(rest, f);
      }
    }
  }

  /** `xs.findIndex(p)`, or None where JavaScript answers -1: the position
      of the first element satisfying `p`. */
  function Find<T>(xs: seq<T>, p: T -> bool): (r: Option<nat>)
    ensures r.Some? ==> r.value < |xs| && p(xs[r.value])
    ensures r.Some? ==> forall k :: 0 <= k < r.value ==> !p(xs[k])
    ensures r.None? <==> forall k :: 0 <= k < |xs| ==> !p(xs[k])
    decreases |xs|
  {
    if xs == [] then None
    else if p(xs[0]) then Some(0)
    else match Find(xs[1..], p)
      case None => None
      case Some(k) => Some(k + 1)
  }
}

=== FILE: source_helpers.dfy ===
/** The citation helpers of src/lib/source-helpers.ts: resolving a cited
    provision to a link, listing a jurisdiction's records, and re-spacing
    the commas of a reference for display. */
module SourceHelpers {
  import opened Types
  import opened Text
  import opened Seqs
  import MockLegalData

  // ---------------------------------------------------------------------
  // Links
  // ---------------------------------------------------------------------

  /** The home page of each jurisdiction's official law portal, used when a
      citation has no record of its own. */
  function FallbackUrl(j: Jurisdiction): (url: string)
    ensures |url| > 0
  {
    match j
    case CH => "https://www.fedlex.admin.ch/en/home"
    case EU => "https://eur-lex.europa.eu/homepage.html"
    case UK => "https://www.legislation.gov.uk/"
  }

  /** A record is the one a citation names when both its jurisdiction and
      its reference are equal to the citation's. */
  predicate Cites(s: LegalSource, j: Jurisdiction, reference: string)
  {
    s.jurisdiction == j && s.reference == reference
  }

  /** `getSourceUrl` over a given table: the url of the first record the
      citation names, unless that url is empty (JavaScript treats "" as
      false); otherwise the jurisdiction's fallback.  The answer is never
      empty. */
  function SourceUrl(table: seq<LegalSource>, j: Jurisdiction, reference: string): (url: string)
    ensures forall k :: FirstCite(table, j, reference, k) ==>
      url == if table[k].url != "" then table[k].url else FallbackUrl(j)
    ensures (forall k :: 0 <= k < |table| ==> !Cites(table[k], j, reference)) ==> url == FallbackUrl(j)
    ensures url != ""
  {
    var found := Find(table, (s: LegalSource) => Cites(s, j, reference));
    FirstCiteIsFound(table, j, reference, found);
    match found
    case Some(k) => if table[k].url != "" then table[k].url else FallbackUrl(j)
    case None => FallbackUrl(j)
  }

  /** `table[k]` is the first record the citation names. */
  predicate FirstCite(table: seq<LegalSource>, j: Jurisdiction, reference: string, k: int)
  {
    0 <= k < |table| && Cites(table[k], j, reference)
    && forall m :: 0 <= m < k ==> !Cites(table[m], j, reference)
  }

  /** The first record a citation names is the one the search finds. */
  lemma FirstCiteIsFound(table: seq<LegalSource>, j: Jurisdiction, reference: string, found: Option<nat>)
    requires found == Find(table, (s: LegalSource) => Cites(s, j, reference))
    ensures forall k :: FirstCite(table, j, reference, k) ==> found == Some(k)
  {
    forall k | FirstCite(table, j, reference, k)
      ensures found == Some(k)
    {
    }
  }

  /** `getSourceUrl` over the legal-source table.  Every record has a
      url, so a cited record always supplies its own link, and only a
      citation no record names falls back to the portal's home page. */
  function GetSourceUrl(j: Jurisdiction, reference: string): (url: string)
    ensures url != ""
    ensures forall k :: FirstCite(MockLegalData.LegalSources, j, reference, k) ==>
      url == MockLegalData.LegalSources[k].url
    ensures (forall k :: 0 <= k < |MockLegalData.LegalSources| ==> !Cites(MockLegalData.LegalSources[k], j, reference))
      ==> url == FallbackUrl(j)
  {
    MockLegalData.ReferenceLengths();
    SourceUrl(MockLegalData.LegalSources, j, reference)
  }

  /** No two records of the table share a reference, so every record's own
      citation resolves to that record's url. */
  lemma ListedReferenceResolves(k: nat)
    requires k < |MockLegalData.LegalSources|
    ensures GetSourceUrl(MockLegalData.LegalSources[k].jurisdiction, MockLegalData.LegalSources[k].reference)
      == MockLegalData.LegalSources[k].url
  {
    var t := MockLegalData.LegalSources;
    OnlyOwnCitation(k);
    assert FirstCite(t, t[k].jurisdiction, t[k].reference, k);
    assert t[k].url != "";
  }

  /** No other record is named by a record's own citation: within one
      jurisdiction the references differ in length. */
  lemma OnlyOwnCitation(k: nat)
    requires k < |MockLegalData.LegalSources|
    ensures forall m :: 0 <= m < |MockLegalData.LegalSources| && m != k ==>
      !Cites(MockLegalData.LegalSources[m], MockLegalData.LegalSources[k].jurisdiction, MockLegalData.LegalSources[k].reference)
  {
    var t := MockLegalData.LegalSources;
    MockLegalData.ReferenceLengths();
    forall m | 0 <= m < |t| && m != k
      ensures t[m].jurisdiction != t[k].jurisdiction || |t[m].reference| != |t[k].reference|
    {
    }
  }

  /** The Swiss Code of Obligations article cited by the contract-formation
      answer has no record, so it links to the Swiss portal's home page. */
  lemma UnlistedSwissReference()
    ensures GetSourceUrl(CH, "SR 220, Art. 1") == "https://www.fedlex.admin.ch/en/home"
  {
    var t := MockLegalData.LegalSources;
    MockLegalData.ReferenceLengths();
    forall k | 0 <= k < |t|
      ensures !Cites(t[k], CH, "SR 220, Art. 1")
    {
      assert t[k].jurisdiction != CH || |t[k].reference| != |"SR 220, Art. 1"|;
    }
  }

  // ---------------------------------------------------------------------
  // Records of a jurisdiction
  // ---------------------------------------------------------------------

  /** `getLegalSourcesByJurisdiction`, the same filter as the one beside the
      table: the records of `j`, in table order. */
  function GetLegalSourcesByJurisdiction(j: Jurisdiction): (r: seq<LegalSource>)
    ensures forall i :: 0 <= i < |r| ==> r[i].jurisdiction == j
    ensures r == MockLegalData.GetLegalSourcesByJurisdiction(j)
  {
    Filter(MockLegalData.LegalSources, (source: LegalSource) => source.jurisdiction == j)
  }

  // ---------------------------------------------------------------------
  // Reference formatting
  // ---------------------------------------------------------------------

  /** `formatReference`: every comma is followed by an added space, then
      the ends are trimmed.  Formatting neither adds nor loses commas,
      leaves nothing to trim, and only trims a reference without commas. */
  function FormatReference(reference: string): (r: string)
    ensures Count(r, ',') == Count(reference, ',')
    ensures Trim(r) == r
    ensures ',' !in reference ==> r == Trim(reference)
  {
    var spaced := ReplaceChar(reference, ',', ", ");
    assert ", " == [','] + [' '];
    CountAppend([','], [' '], ',');
    ReplaceCharKeepsCount(reference, ',', ", ");
    TrimKeepsCount(spaced, ',');
    TrimIdempotent(spaced);
    var r := Trim(spaced);
    if ',' in reference then r
    else
      ReplaceCharAbsent(reference, ',', ", ");
      r
  }

  /** The added space is added even after a comma that already has one:
      ", " followed by more text comes out as ",  ". */
  lemma FormatReferenceDoublesSpace(a: string, b: string)
    requires !IsBlank(b)
    ensures Includes(FormatReference(a + ", " + b), ",  ")
  {
    ReplaceAroundSpacedComma(a, b);
    var k := NonBlankSurvives(b);
    TrimKeepsInner(ReplaceChar(a, ',', ", "), ",  ", ReplaceChar(b, ',', ", "), k);
  }

  /** Re-spacing turns an existing ", " into ",  " and works on both sides
      of it independently. */
  lemma ReplaceAroundSpacedComma(a: string, b: string)
    ensures ReplaceChar(a + ", " + b, ',', ", ")
      == ReplaceChar(a, ',', ", ") + ",  " + ReplaceChar(b, ',', ", ")
  {
    var ra, rb := ReplaceChar(a, ',', ", "), ReplaceChar(b, ',', ", ");
    ReplaceCharOne(',', ',', ", ");
    ReplaceCharOne(' ', ',', ", ");
    ReplaceCharAppend(a, [','], ',', ", ");
    ReplaceCharAppend([' '], b, ',', ", ");
    ReplaceCharAppend(a + [','], [' '] + b, ',', ", ");
    assert a + ", " + b == (a + [',']) + ([' '] + b);
    assert (ra + ", ") + (" " + rb) == ra + ",  " + rb;
  }

  /** Trimming keeps a middle part that starts with a non-space character
      and is followed by text holding one. */
  lemma TrimKeepsInner(x: string, m: string, y: string, k: nat)
    requires |m| > 0 && !IsSpace(m[0])
    requires k < |y| && !IsSpace(y[k])
    ensures Includes(Trim(x + m + y), m)
  {
    MiddleOfThree(x, m, y, k);
    TrimKeepsBetween(x + m + y, |x|, |x| + |m|, |x| + |m| + k);
  }

  lemma MiddleOfThree(x: string, m: string, y: string, k: nat)
    requires |m| > 0 && k < |y|
    ensures (x + m + y)[|x|] == m[0] && (x + m + y)[|x| + |m| + k] == y[k]
    ensures (x + m + y)[|x|..|x| + |m|] == m
  {
  }

  /** Comma re-spacing keeps some non-space character of a text that has
      one, and returns its position. */
  lemma {:induction false} NonBlankSurvives(b: string) returns (k: nat)
    requires !IsBlank(b)
    ensures k < |ReplaceChar(b, ',', ", ")| && !IsSpace(ReplaceChar(b, ',', ", ")[k])
    decreases |b|
  {
    var head := if b[0] == ',' then ", " else [b[0]];
    assert ReplaceChar(b, ',', ", ") == head + ReplaceChar(b[1..], ',', ", ");
    if !IsSpace(b[0]) {
      k := 0;
    } else {
      var k' := NonBlankSurvives(b[1..]);
      k := |head| + k';
    }
  }
}

=== FILE: text.dfy ===
/** The JavaScript string built-ins the application relies on, restricted to
    ASCII: `toLowerCase`, `trim`, `includes`, `split` on a one-character
    separator, `join`, and a global one-character `replace`.  Strings are
    sequences of `char`. */
module Text {

  // ---------------------------------------------------------------------
  // Case mapping (ASCII letters only)
  // ---------------------------------------------------------------------

  predicate IsUpper(c: char) { 'A' <= c <= 'Z' }

  predicate IsLower(c: char) { 'a' <= c <= 'z' }

  function LowerChar(c: char): (r: char)
    ensures !IsUpper(r)
    ensures IsUpper(c) ==> r as int == c as int + 32
    ensures !IsUpper(c) ==> r == c
  {
    if IsUpper(c) then (c as int + 32) as char else c
  }

  function UpperChar(c: char): (r: char)
    ensures !IsLower(r)
    ensures IsLower(c) ==> r as int == c as int - 32
    ensures !IsLower(c) ==> r == c
  {
    if IsLower(c) then (c as int - 32) as char else c
  }

  /** `String.prototype.toLowerCase`, for the ASCII letters. */
  function ToLower(s: string): (r: string)
    ensures |r| == |s|
    ensures forall i :: 0 <= i < |s| ==> r[i] == LowerChar(s[i])
  {
    seq(|s|, i requires 0 <= i < |s| => LowerChar(s[i]))
  }

  /** `String.prototype.toUpperCase`, for the ASCII letters. */
  function ToUpper(s: string): (r: string)
    ensures |r| == |s|
    ensures forall i :: 0 <= i < |s| ==> r[i] == UpperChar(s[i])
  {
    seq(|s|, i requires 0 <= i < |s| => UpperChar(s[i]))
  }

  /** Lowering twice is lowering once. */
  lemma ToLowerIdempotent(s: string)
    ensures ToLower(ToLower(s)) == ToLower(s)
  {
  }

  /** Two strings that differ only in the case of their letters lower to the
      same string. */
  lemma ToLowerOfUpper(s: string)
    ensures ToLower(ToUpper(s)) == ToLower(s)
  {
    forall i | 0 <= i < |s|
      ensures ToLower(ToUpper(s))[i] == ToLower(s)[i]
    {
    }
  }

  lemma ToLowerAppend(a: string, b: string)
    ensures ToLower(a + b) == ToLower(a) + ToLower(b)
  {
  }

  /** A character that is not a capital is absent from a lowered string as
      soon as neither it nor (for a letter) its capital occurs in the
      original. */
  lemma AbsentAfterLowering(s: string, c: char)
    requires !IsUpper(c)
    requires c !in s && (IsLower(c) ==> UpperChar(c) !in s)
    ensures c !in ToLower(s)
  {
    forall i | 0 <= i < |s|
      ensures ToLower(s)[i] != c
    {
      if IsUpper(s[i]) && IsLower(c) {
        assert s[i] != UpperChar(c);
      }
    }
  }

  // ---------------------------------------------------------------------
  // Substring search
  // ---------------------------------------------------------------------

  predicate StartsWith(s: string, p: string)
  {
    |p| <= |s| && s[..|p|] == p
  }

  predicate EndsWith(s: string, p: string)
  {
    |p| <= |s| && s[|s| - |p|..] == p
  }

  /** `String.prototype.includes`: try every start position from the left
      while the rest of `s` is still long enough to hold `p`. */
  predicate Includes(s: string, p: string)
    decreases |s|
  {
    |p| <= |s| && (s[..|p|] == p || Includes(s[1..], p))
  }

  /** `p` sits in `s` starting at index `i`. */
  ghost predicate OccursAt(s: string, p: string, i: int)
  {
    0 <= i && i + |p| <= |s| && s[i..i + |p|] == p
  }

  /** The left-to-right scan finds `p` exactly when `p` occurs somewhere. */
  lemma {:induction false} IncludesIffOccurs(s: string, p: string)
    ensures Includes(s, p) <==> exists i :: OccursAt(s, p, i)
    decreases |s|
  {
    if Includes(s, p) {
      if s[..|p|] == p {
        assert OccursAt(s, p, 0);
      } else {
        IncludesIffOccurs(s[1..], p);
        var i :| OccursAt(s[1..], p, i);
        assert s[1..][i..i + |p|] == s[i + 1..i + 1 + |p|];
        assert OccursAt(s, p, i + 1);
      }
    }
    if exists i :: OccursAt(s, p, i) {
      var i :| OccursAt(s, p, i);
      if i > 0 {
        assert s[1..][i - 1..i - 1 + |p|] == s[i..i + |p|];
        assert OccursAt(s[1..], p, i - 1);
        IncludesIffOccurs(s[1..], p);
      }
    }
  }

  /** An occurrence at a known position is found. */
  lemma IncludesAt(s: string, p: string, i: nat)
    requires i + |p| <= |s| && s[i..i + |p|] == p
    ensures Includes(s, p)
  {
    assert OccursAt(s, p, i);
    IncludesIffOccurs(s, p);
  }

  /** The empty string is found in every string. */
  lemma IncludesEmpty(s: string)
    ensures Includes(s, "")
  {
    assert s[..0] == "";
  }

  lemma IncludesInLeft(a: string, b: string, p: string)
    requires Includes(a, p)
    ensures Includes(a + b, p)
  {
    IncludesIffOccurs(a, p);
    var i :| OccursAt(a, p, i);
    assert (a + b)[i..i + |p|] == a[i..i + |p|];
    IncludesAt(a + b, p, i);
  }

  lemma IncludesInRight(a: string, b: string, p: string)
    requires Includes(b, p)
    ensures Includes(a + b, p)
  {
    IncludesIffOccurs(b, p);
    var i :| OccursAt(b, p, i);
    assert (a + b)[|a| + i..|a| + i + |p|] == b[i..i + |p|];
    IncludesAt(a + b, p, |a| + i);
  }

  /** A pattern placed between two strings is found. */
  lemma IncludesBetween(a: string, p: string, b: string)
    ensures Includes(a + p + b, p)
  {
    assert (a + p + b)[|a|..|a| + |p|] == p;
    IncludesAt(a + p + b, p, |a|);
  }

  /** A pattern holding a character the text lacks is not found. */
  lemma NotIncludesMissingChar(s: string, p: string, c: char)
    requires c in p && c !in s
    ensures !Includes(s, p)
  {
    IncludesIffOccurs(s, p);
  }

  /** A pattern that does not contain the separator `c` cannot straddle it:
      if it is in neither side, it is not in the joined text. */
  lemma NotIncludesAcross(a: string, c: char, b: string, p: string)
    requires c !in p
    requires !Includes(a, p) && !Includes(b, p)
    ensures !Includes(a + [c] + b, p)
  {
    var s := a + [c] + b;
    forall i | OccursAt(s, p, i)
      ensures OccursAt(a, p, i) || OccursAt(b, p, i - |a| - 1)
    {
      OccurrenceAround(a, c, b, p, i);
    }
    IncludesIffOccurs(s, p);
    IncludesIffOccurs(a, p);
    IncludesIffOccurs(b, p);
  }

  /** An occurrence in `a + [c] + b` lies in `a`, lies in `b`, or covers the
      middle character, which the pattern then holds. */
  lemma OccurrenceAround(a: string, c: char, b: string, p: string, i: int)
    requires OccursAt(a + [c] + b, p, i)
    ensures OccursAt(a, p, i) || OccursAt(b, p, i - |a| - 1) || c in p
  {
    var s := a + [c] + b;
    if i + |p| <= |a| {
      assert s[i..i + |p|] == a[i..i + |p|];
    } else if i > |a| {
      assert s[i..i + |p|] == b[i - |a| - 1..i - |a| - 1 + |p|];
    } else {
      assert s[i..i + |p|][|a| - i] == s[|a|];
    }
  }

  /** Lowering keeps every occurrence: a lowered text contains the lowered
      pattern wherever the original held the pattern. */
  lemma IncludesLowered(s: string, p: string)
    requires Includes(s, p)
    ensures Includes(ToLower(s), ToLower(p))
  {
    IncludesIffOccurs(s, p);
    var i :| OccursAt(s, p, i);
    assert ToLower(s)[i..i + |p|] == ToLower(p) by {
      forall k | 0 <= k < |p|
        ensures ToLower(s)[i..i + |p|][k] == ToLower(p)[k]
      {
        assert s[i + k] == s[i..i + |p|][k];
      }
    }
    IncludesAt(ToLower(s), ToLower(p), i);
  }

  /** A keyword holding a character that neither the text nor (for a
      letter) its capital version contains is not found in the lowered text. */
  lemma NotIncludesLowered(s: string, p: string, c: char)
    requires !IsUpper(c) && c in p
    requires c !in s && (IsLower(c) ==> UpperChar(c) !in s)
    ensures !Includes(ToLower(s), p)
  {
    AbsentAfterLowering(s, c);
    NotIncludesMissingChar(ToLower(s), p, c);
  }

  /** A text assembled around a piece that lowers to `kw` contains `kw`
      once lowered. */
  lemma KeywordIn(pre: string, mid: string, post: string, kw: string)
    requires ToLower(mid) == kw
    ensures Includes(ToLower(pre + mid + post), kw)
  {
    ToLowerAppend(pre + mid, post);
    ToLowerAppend(pre, mid);
    IncludesAt(ToLower(pre + mid + post), kw, |pre|);
  }

  /** `NotIncludesAcross` for lowered text. */
  lemma NotIncludesLoweredAcross(a: string, c: char, b: string, p: string)
    requires LowerChar(c) !in p
    requires !Includes(ToLower(a), p) && !Includes(ToLower(b), p)
    ensures !Includes(ToLower(a + [c] + b), p)
  {
    ToLowerAppend(a + [c], b);
    ToLowerAppend(a, [c]);
    assert ToLower([c]) == [LowerChar(c)];
    NotIncludesAcross(ToLower(a), LowerChar(c), ToLower(b), p);
  }

  // ---------------------------------------------------------------------
  // Whitespace trimming (the ASCII part of the ECMAScript WhiteSpace and
  // LineTerminator sets: TAB, LF, VT, FF, CR and SPACE)
  // ---------------------------------------------------------------------

  predicate IsSpace(c: char)
  {
    c == ' ' || '\t' <= c <= '\r'
  }

  /** Every character is whitespace (the empty string included). */
  predicate IsBlank(s: string)
  {
    forall i :: 0 <= i < |s| ==> IsSpace(s[i])
  }

  /** Drops the leading whitespace. */
  function TrimStart(s: string): (r: string)
    ensures |r| <= |s| && r == s[|s| - |r|..]
    ensures IsBlank(s[..|s| - |r|])
    ensures r != [] ==> !IsSpace(r[0])
    decreases |s|
  {
    if |s| > 0 && IsSpace(s[0]) then
      var r := TrimStart(s[1..]);
      TrimStartStep(s, r);
      r
    else s
  }

  /** Dropping one leading space keeps the shape `TrimStart` promises. */
  lemma TrimStartStep(s: string, r: string)
    requires |s| > 0 && IsSpace(s[0])
    requires |r| <= |s| - 1 && r == s[1..][|s| - 1 - |r|..]
    requires IsBlank(s[1..][..|s| - 1 - |r|])
    ensures r == s[|s| - |r|..]
    ensures IsBlank(s[..|s| - |r|])
  {
    var k := |s| - |r|;
    assert s[1..][k - 1..] == s[k..];
    forall q | 0 <= q < k
      ensures IsSpace(s[..k][q])
    {
      if q > 0 {
        assert s[..k][q] == s[1..][..k - 1][q - 1];
      }
    }
  }

  /** Drops the trailing whitespace. */
  function TrimEnd(s: string): (r: string)
    ensures |r| <= |s| && r == s[..|r|]
    ensures IsBlank(s[|r|..])
    ensures r != [] ==> !IsSpace(r[|r| - 1])
    decreases |s|
  {
    if |s| > 0 && IsSpace(s[|s| - 1]) then
      var r := TrimEnd(s[..|s| - 1]);
      TrimEndStep(s, r);
      r
    else s
  }

  /** Dropping one trailing space keeps the shape `TrimEnd` promises. */
  lemma TrimEndStep(s: string, r: string)
    requires |s| > 0 && IsSpace(s[|s| - 1])
    requires |r| <= |s| - 1 && r == s[..|s| - 1][..|r|]
    requires IsBlank(s[..|s| - 1][|r|..])
    ensures r == s[..|r|]
    ensures IsBlank(s[|r|..])
  {
    var k := |r|;
    assert s[..|s| - 1][..k] == s[..k];
    forall q | 0 <= q < |s| - k
      ensures IsSpace(s[k..][q])
    {
      if q < |s| - 1 - k {
        assert s[k..][q] == s[..|s| - 1][k..][q];
      }
    }
  }

  /** `String.prototype.trim`. */
  function Trim(s: string): (r: string)
    ensures |r| <= |s|
    ensures r != [] ==> !IsSpace(r[0]) && !IsSpace(r[|r| - 1])
  {
    TrimEnd(TrimStart(s))
  }

  /** `Trim` keeps one contiguous piece of its input and removes only
      whitespace around it. */
  lemma TrimBounds(s: string) returns (lo: nat)
    ensures lo + |Trim(s)| <= |s|
    ensures Trim(s) == s[lo..lo + |Trim(s)|]
    ensures IsBlank(s[..lo]) && IsBlank(s[lo + |Trim(s)|..])
  {
    var t := TrimStart(s);
    lo := |s| - |t|;
    var r := TrimEnd(t);
    assert IsBlank(s[..lo]);
    SuffixPieces(s, lo, t, r);
    assert Trim(s) == r;
  }

  /** A piece of a suffix, followed by whitespace only, is a piece of the
      whole followed by whitespace only. */
  lemma SuffixPieces(s: string, lo: nat, t: string, r: string)
    requires lo <= |s| && t == s[lo..]
    requires |r| <= |t| && r == t[..|r|] && IsBlank(t[|r|..])
    ensures lo + |r| <= |s| && r == s[lo..lo + |r|]
    ensures IsBlank(s[lo + |r|..])
  {
    SuffixSlices(s, lo, |r|);
  }

  /** Slices of a suffix are slices of the whole. */
  lemma SuffixSlices(s: string, lo: nat, k: nat)
    requires lo + k <= |s|
    ensures s[lo..][..k] == s[lo..lo + k]
    ensures s[lo..][k..] == s[lo + k..]
  {
  }

  /** A whitespace-only prefix ends before the first non-space character. */
  lemma BlankPrefixEndsBefore(s: string, lo: nat, i: nat)
    requires lo <= |s| && IsBlank(s[..lo])
    requires i < |s| && !IsSpace(s[i])
    ensures lo <= i
  {
    assert forall j | 0 <= j < lo :: s[..lo][j] == s[j];
  }

  /** A whitespace-only suffix starts after the last non-space character. */
  lemma BlankSuffixStartsAfter(s: string, hi: nat, i: nat)
    requires hi <= |s| && IsBlank(s[hi..])
    requires i < |s| && !IsSpace(s[i])
    ensures i < hi
  {
    assert forall j | hi <= j < |s| :: s[hi..][j - hi] == s[j];
  }

  /** Trimming keeps every character from the non-space one at `i` up to
      the non-space one at `last`. */
  lemma TrimKeepsBetween(t: string, i: nat, j: nat, last: nat)
    requires i <= j <= last < |t|
    requires !IsSpace(t[i]) && !IsSpace(t[last])
    ensures Includes(Trim(t), t[i..j])
  {
    var lo := TrimBounds(t);
    var r := Trim(t);
    var hi := lo + |r|;
    BlankPrefixEndsBefore(t, lo, i);
    BlankSuffixStartsAfter(t, hi, last);
    InnerSlice(t, i, j, lo, r);
  }

  /** A piece of `t` holds every slice of `t` that lies within it. */
  lemma InnerSlice(t: string, i: nat, j: nat, lo: nat, r: string)
    requires lo <= i <= j <= lo + |r| <= |t| && r == t[lo..lo + |r|]
    ensures Includes(r, t[i..j])
  {
    SliceOfSlice(t, lo, lo + |r|, i - lo, j - lo);
    IncludesAt(r, t[i..j], i - lo);
  }

  /** A slice of a slice is a slice of the whole. */
  lemma SliceOfSlice(t: string, lo: nat, hi: nat, a: nat, b: nat)
    requires lo <= hi <= |t| && a <= b <= hi - lo
    ensures t[lo..hi][a..b] == t[lo + a..lo + b]
  {
    forall q | 0 <= q < b - a
      ensures t[lo..hi][a..b][q] == t[lo + a..lo + b][q]
    {
      assert t[lo..hi][a..b][q] == t[lo..hi][a + q];
    }
  }

  /** A string trims to nothing exactly when it is blank: the guard
      `if (!query.trim())` rejects precisely the blank queries. */
  lemma TrimEmptyIffBlank(s: string)
    ensures Trim(s) == [] <==> IsBlank(s)
  {
    var lo := TrimBounds(s);
    if Trim(s) == [] {
      assert s == s[..lo] + s[lo..];
      forall i | 0 <= i < |s| ensures IsSpace(s[i]) {
        if i < lo {
          assert s[i] == s[..lo][i];
        } else {
          assert s[i] == s[lo..][i - lo];
        }
      }
    } else {
      assert s[lo] == Trim(s)[0];
    }
  }

  /** Trimming a trimmed string changes nothing. */
  lemma TrimIdempotent(s: string)
    ensures Trim(Trim(s)) == Trim(s)
  {
    var t := Trim(s);
    if t != [] {
      assert TrimStart(t) == t;
      assert TrimEnd(t) == t;
    }
  }

  // ---------------------------------------------------------------------
  // Counting, joining and splitting
  // ---------------------------------------------------------------------

  /** Number of occurrences of `c` in `s`. */
  function Count(s: string, c: char): (n: nat)
    ensures n <= |s|
    ensures n == 0 <==> c !in s
    decreases |s|
  {
    if |s| == 0 then 0 else (if s[0] == c then 1 else 0) + Count(s[1..], c)
  }

  lemma {:induction false} CountAppend(a: string, b: string, c: char)
    ensures Count(a + b, c) == Count(a, c) + Count(b, c)
    decreases |a|
  {
    if |a| > 0 {
      assert (a + b)[1..] == a[1..] + b;
      CountAppend(a[1..], b, c);
    } else {
      assert a + b == b;
    }
  }

  /** `Array.prototype.join`: the pieces with `sep` between neighbours. */
  function Join(pieces: seq<string>, sep: string): string
    decreases |pieces|
  {
    if |pieces| == 0 then ""
    else if |pieces| == 1 then pieces[0]
    else pieces[0] + sep + Join(pieces[1..], sep)
  }

  /** `String.prototype.split` on the one-character separator `sep`.  The
      pieces hold no separator and join back to the input, so they are the
      only such decomposition; there is always one piece more than there are
      separators (the empty string splits into one empty piece). */
  function Split(s: string, sep: char): (r: seq<string>)
    ensures |r| == Count(s, sep) + 1
    ensures forall i :: 0 <= i < |r| ==> sep !in r[i]
    ensures Join(r, [sep]) == s
    decreases |s|
  {
    if |s| == 0 then [""]
    else
      var rest := Split(s[1..], sep);
      assert s == [s[0]] + s[1..];
      if s[0] == sep then
        SplitStepAtSeparator(s[1..], sep, rest);
        [""] + rest
      else
        SplitStepInPiece(s[0], s[1..], sep, rest);
        [[s[0]] + rest[0]] + rest[1..]
  }

  /** The pieces of `tail` headed by an empty piece are the pieces of
      `[sep] + tail`. */
  lemma SplitStepAtSeparator(tail: string, sep: char, rest: seq<string>)
    requires |rest| == Count(tail, sep) + 1
    requires forall i :: 0 <= i < |rest| ==> sep !in rest[i]
    requires Join(rest, [sep]) == tail
    ensures |[""] + rest| == Count([sep] + tail, sep) + 1
    ensures forall i :: 0 <= i < |[""] + rest| ==> sep !in ([""] + rest)[i]
    ensures Join([""] + rest, [sep]) == [sep] + tail
  {
    var r := [""] + rest;
    assert r[1..] == rest;
    assert ([sep] + tail)[1..] == tail;
  }

  /** A character other than `sep` joins the first piece of `tail`. */
  lemma SplitStepInPiece(c: char, tail: string, sep: char, rest: seq<string>)
    requires c != sep
    requires |rest| == Count(tail, sep) + 1
    requires forall i :: 0 <= i < |rest| ==> sep !in rest[i]
    requires Join(rest, [sep]) == tail
    ensures |[[c] + rest[0]] + rest[1..]| == Count([c] + tail, sep) + 1
    ensures forall i :: 0 <= i < |[[c] + rest[0]] + rest[1..]| ==> sep !in ([[c] + rest[0]] + rest[1..])[i]
    ensures Join([[c] + rest[0]] + rest[1..], [sep]) == [c] + tail
  {
    var r := [[c] + rest[0]] + rest[1..];
    JoinExtendFirst([c], rest, [sep]);
    assert ([c] + tail)[1..] == tail;
    forall i | 0 <= i < |r|
      ensures sep !in r[i]
    {
      if i > 0 {
        assert r[i] == rest[i];
      }
    }
  }

  /** Growing the first piece grows the joined text at its front. */
  lemma JoinExtendFirst(h: string, pieces: seq<string>, sep: string)
    requires |pieces| >= 1
    ensures Join([h + pieces[0]] + pieces[1..], sep) == h + Join(pieces, sep)
  {
    var grown := [h + pieces[0]] + pieces[1..];
    if |pieces| > 1 {
      assert grown[1..] == pieces[1..];
    }
  }

  /** `Split` inverts `Join` on pieces that hold no separator. */
  lemma {:induction false} SplitJoin(pieces: seq<string>, sep: char)
    requires |pieces| >= 1
    requires forall i :: 0 <= i < |pieces| ==> sep !in pieces[i]
    ensures Split(Join(pieces, [sep]), sep) == pieces
    decreases |pieces|
  {
    if |pieces| > 1 {
      SplitJoin(pieces[1..], sep);
    }
    SplitUnique(Join(pieces, [sep]), pieces, sep);
  }

  /** Only one sequence of separator-free pieces joins to a given string. */
  lemma {:induction false} SplitUnique(s: string, pieces: seq<string>, sep: char)
    requires |pieces| >= 1
    requires forall i :: 0 <= i < |pieces| ==> sep !in pieces[i]
    requires Join(pieces, [sep]) == s
    ensures Split(s, sep) == pieces
    decreases |s|, |pieces[0]|
  {
    var head := pieces[0];
    if |pieces| == 1 {
      assert s == head;
      SplitNoSeparator(s, sep);
    } else if |head| == 0 {
      var tail := pieces[1..];
      assert s == [sep] + Join(tail, [sep]);
      assert s[1..] == Join(tail, [sep]);
      SplitUnique(s[1..], tail, sep);
      assert Split(s, sep) == [""] + Split(s[1..], sep);
      assert pieces == [""] + tail;
    } else {
      var shorter := [head[1..]] + pieces[1..];
      assert shorter[1..] == pieces[1..];
      assert forall i :: 0 <= i < |shorter| ==> sep !in shorter[i] by {
        forall i | 0 <= i < |shorter| ensures sep !in shorter[i] {
          if i == 0 {
            assert forall k :: 0 <= k < |head[1..]| ==> head[1..][k] == head[k + 1];
          } else {
            assert shorter[i] == pieces[i];
          }
        }
      }
      assert s == [head[0]] + Join(shorter, [sep]);
      assert s[0] == head[0] && s[0] != sep;
      SplitUnique(s[1..], shorter, sep);
      assert head == [head[0]] + head[1..];
      assert pieces == [[s[0]] + shorter[0]] + shorter[1..];
    }
  }

  lemma {:induction false} SplitNoSeparator(s: string, sep: char)
    requires sep !in s
    ensures Split(s, sep) == [s]
    decreases |s|
  {
    if |s| > 0 {
      assert sep !in s[1..];
      SplitNoSeparator(s[1..], sep);
    }
  }

  /** Concatenation of a sequence of strings, in order. */
  function Concat(parts: seq<string>): string
    decreases |parts|
  {
    if |parts| == 0 then "" else Concat(parts[..|parts| - 1]) + parts[|parts| - 1]
  }

  lemma {:induction false} ConcatCons(x: string, parts: seq<string>)
    ensures Concat([x] + parts) == x + Concat(parts)
    decreases |parts|
  {
    if |parts| > 0 {
      assert ([x] + parts)[..|parts|] == [x] + parts[..|parts| - 1];
      ConcatCons(x, parts[..|parts| - 1]);
    } else {
      assert [x] + parts == [x];
      assert [x][..0] == [];
    }
  }

  /** The prefix of a concatenation grows by exactly the next part. */
  lemma ConcatPrefixStep(parts: seq<string>, k: nat)
    requires k < |parts|
    ensures Concat(parts[..k + 1]) == Concat(parts[..k]) + parts[k]
  {
    assert parts[..k + 1][..k] == parts[..k];
  }

  // ---------------------------------------------------------------------
  // Global replacement of one character
  // ---------------------------------------------------------------------

  /** `s.replace(/c/g, by)`: every `c` in `s` becomes `by`, scanning left to
      right; the replacement text is not rescanned. */
  function ReplaceChar(s: string, c: char, with: string): string
    decreases |s|
  {
    if |s| == 0 then ""
    else (if s[0] == c then with else [s[0]]) + ReplaceChar(s[1..], c, with)
  }

  /** Global replacement agrees with splitting on `c` and joining with `by`. */
  lemma {:induction false} ReplaceCharIsSplitJoin(s: string, c: char, with: string)
    ensures ReplaceChar(s, c, with) == Join(Split(s, c), with)
    decreases |s|
  {
    if |s| > 0 {
      ReplaceCharIsSplitJoin(s[1..], c, with);
      ReplaceCharFirst(s, c, with);
      SplitFirst(s, c);
      ReplaceStep(s[0], c, with, ReplaceChar(s[1..], c, with), Split(s[1..], c));
    }
  }

  /** How the first character of a non-empty text is replaced. */
  lemma ReplaceCharFirst(s: string, c: char, with: string)
    requires |s| > 0
    ensures ReplaceChar(s, c, with) == (if s[0] == c then with else [s[0]]) + ReplaceChar(s[1..], c, with)
  {
  }

  /** One step of `ReplaceCharIsSplitJoin`: if the rest of the text is its
      pieces joined with `with`, so is the whole. */
  lemma ReplaceStep(d: char, c: char, with: string, replaced: string, rest: seq<string>)
    requires |rest| >= 1 && replaced == Join(rest, with)
    ensures d == c ==> with + replaced == Join([""] + rest, with)
    ensures d != c ==> [d] + replaced == Join([[d] + rest[0]] + rest[1..], with)
  {
    if d == c {
      JoinCons("", rest, with);
    } else {
      JoinExtendFirst([d], rest, with);
    }
  }

  /** How the first character of a non-empty text enters its pieces. */
  lemma SplitFirst(s: string, sep: char)
    requires |s| > 0
    ensures s[0] == sep ==> Split(s, sep) == [""] + Split(s[1..], sep)
    ensures s[0] != sep ==>
      Split(s, sep) == [[s[0]] + Split(s[1..], sep)[0]] + Split(s[1..], sep)[1..]
  {
  }

  /** A piece put in front of at least one other is followed by `sep`. */
  lemma JoinCons(h: string, pieces: seq<string>, sep: string)
    requires |pieces| >= 1
    ensures Join([h] + pieces, sep) == h + sep + Join(pieces, sep)
  {
    assert ([h] + pieces)[1..] == pieces;
  }

  lemma {:induction false} ReplaceCharAppend(a: string, b: string, c: char, with: string)
    ensures ReplaceChar(a + b, c, with) == ReplaceChar(a, c, with) + ReplaceChar(b, c, with)
    decreases |a|
  {
    if |a| > 0 {
      assert (a + b)[1..] == a[1..] + b;
      ReplaceCharAppend(a[1..], b, c, with);
    } else {
      assert a + b == b;
    }
  }

  /** A single character is replaced when it is `c` and kept otherwise. */
  lemma ReplaceCharOne(d: char, c: char, with: string)
    ensures ReplaceChar([d], c, with) == if d == c then with else [d]
  {
    assert [d][1..] == [];
  }

  /** Replacing `c` by a text that holds `c` once keeps the number of `c`. */
  lemma {:induction false} ReplaceCharKeepsCount(s: string, c: char, with: string)
    requires Count(with, c) == 1
    ensures Count(ReplaceChar(s, c, with), c) == Count(s, c)
    decreases |s|
  {
    if |s| > 0 {
      ReplaceCharKeepsCount(s[1..], c, with);
      var head := if s[0] == c then with else [s[0]];
      CountAppend(head, ReplaceChar(s[1..], c, with), c);
      if s[0] != c {
        assert Count([s[0]], c) == 0;
      }
    }
  }

  /** Text without `c` is left as it is. */
  lemma {:induction false} ReplaceCharAbsent(s: string, c: char, with: string)
    requires c !in s
    ensures ReplaceChar(s, c, with) == s
    decreases |s|
  {
    if |s| > 0 {
      assert c !in s[1..];
      ReplaceCharAbsent(s[1..], c, with);
      assert s == [s[0]] + s[1..];
    }
  }

  /** Whitespace-only text holds no non-space character. */
  lemma {:induction false} BlankCount(s: string, c: char)
    requires IsBlank(s) && !IsSpace(c)
    ensures Count(s, c) == 0
    decreases |s|
  {
    if |s| > 0 {
      BlankCount(s[1..], c);
    }
  }

  /** Trimming never removes a non-space character. */
  lemma TrimKeepsCount(s: string, c: char)
    requires !IsSpace(c)
    ensures Count(Trim(s), c) == Count(s, c)
  {
    var lo := TrimBounds(s);
    var hi := lo + |Trim(s)|;
    ThreeParts(s, lo, hi);
    CountAroundBlank(s[..lo], s[lo..hi], s[hi..], c);
  }

  lemma ThreeParts(s: string, lo: nat, hi: nat)
    requires lo <= hi <= |s|
    ensures s == s[..lo] + s[lo..hi] + s[hi..]
  {
  }

  /** Whitespace around a text adds no non-space character. */
  lemma CountAroundBlank(front: string, middle: string, back: string, c: char)
    requires IsBlank(front) && IsBlank(back) && !IsSpace(c)
    ensures Count(front + middle + back, c) == Count(middle, c)
  {
    CountAppend(front + middle, back, c);
    CountAppend(front, middle, c);
    BlankCount(front, c);
    BlankCount(back, c);
  }
}

=== FILE: types.dfy ===
/** The records the application passes around (src/types/index.ts), plus an
    Option type for the lookups that may find nothing. */
module Types {

  datatype Option<+T> = None | Some(value: T)

  /** The three legal systems the application compares. */
  datatype Jurisdiction = CH | EU | UK

  /** One entry of the static legal-source table.  `fullText` is optional
      in the source record. */
  datatype LegalSource = LegalSource(
    id: string,
    jurisdiction: Jurisdiction,
    title: string,
    reference: string,
    url: string,
    excerpt: string,
    fullText: Option<string>
  )

  /** One entry of the jurisdiction table that the selector renders. */
  datatype JurisdictionInfo = JurisdictionInfo(
    code: Jurisdiction,
    name: string,
    flag: string,
    color: string
  )

  /** A cited provision backing a canned answer. */
  datatype Citation = Citation(jurisdiction: Jurisdiction, reference: string, relevance: string)

  /** A canned answer of the response table. */
  datatype ComparisonResponse = ComparisonResponse(
    queryText: string,
    analysis: string,
    keyDifferences: seq<string>,
    similarities: seq<string>,
    practicalImplications: string,
    sources: seq<Citation>
  )

  /** What the user submitted.  `timestamp` is the clock reading taken at
      assembly time. */
  datatype ComparisonQuery = ComparisonQuery(
    text: string,
    jurisdictions: seq<Jurisdiction>,
    timestamp: int
  )

  /** A canned answer joined with the submission that produced it.  The
      answer's fields are kept together in `response`; `id` and `createdAt`
      are supplied by the caller (a generated identifier and a clock
      reading). */
  datatype ComparisonResult = ComparisonResult(
    response: ComparisonResponse,
    id: string,
    query: ComparisonQuery,
    createdAt: int,
    streamingComplete: bool
  )
}

=== FILE: utils.dfy ===
/** Helpers of src/lib/utils.ts: the word chunking behind the simulated
    streaming, truncation with an ellipsis, and the per-jurisdiction colour
    and badge tables.  The delays are left out, so `StreamText` is the list
    of chunks the generator yields, in order. */
module Utils {
  import opened Types
  import opened Text

  // ---------------------------------------------------------------------
  // Simulated streaming
  // ---------------------------------------------------------------------

  /** The chunks `streamText` yields: the text is split on single spaces and
      each piece is yielded with one space appended.  There is one chunk
      more than there are spaces, and the chunks concatenate to the text
      plus one trailing space. */
  function StreamText(text: string): (chunks: seq<string>)
    ensures |chunks| == Count(text, ' ') + 1
    ensures Concat(chunks) == text + " "
  {
    var words := Split(text, ' ');
    ChunksConcat(words);
    Chunks(words)
  }

  /** Only the space character separates chunks (a newline stays inside its
      chunk): every chunk ends in a space and holds no other. */
  lemma StreamTextChunkShape(text: string)
    ensures forall i :: 0 <= i < |StreamText(text)| ==>
      var c := StreamText(text)[i];
      |c| >= 1 && c[|c| - 1] == ' ' && ' ' !in c[..|c| - 1]
  {
    ChunkShapes(Split(text, ' '));
  }

  /** Each piece followed by one space. */
  function Chunks(words: seq<string>): (chunks: seq<string>)
    ensures |chunks| == |words|
    ensures forall i :: 0 <= i < |words| ==> chunks[i] == words[i] + " "
  {
    seq(|words|, i requires 0 <= i < |words| => words[i] + " ")
  }

  /** Pieces without spaces give chunks with exactly one space, at the end. */
  lemma ChunkShapes(words: seq<string>)
    requires forall i :: 0 <= i < |words| ==> ' ' !in words[i]
    ensures forall i :: 0 <= i < |words| ==>
      var c := Chunks(words)[i];
      |c| >= 1 && c[|c| - 1] == ' ' && ' ' !in c[..|c| - 1]
  {
    forall i | 0 <= i < |words|
      ensures Chunks(words)[i][..|words[i]|] == words[i]
    {
      assert Chunks(words)[i] == words[i] + " ";
    }
  }

  /** Appending a space to every piece and concatenating gives the joined
      pieces plus one space. */
  lemma {:induction false} ChunksConcat(words: seq<string>)
    requires |words| >= 1
    ensures Concat(Chunks(words)) == Join(words, " ") + " "
    decreases |words|
  {
    var chunks := Chunks(words);
    if |words| == 1 {
      assert chunks == [words[0] + " "];
      ConcatCons(words[0] + " ", []);
    } else {
      var tail := words[1..];
      var tailChunks := Chunks(tail);
      assert chunks == [words[0] + " "] + tailChunks;
      ConcatCons(words[0] + " ", tailChunks);
      ChunksConcat(tail);
    }
  }

  /** A text without spaces streams as a single chunk, whatever other
      whitespace it holds. */
  lemma StreamTextWithoutSpaces(text: string)
    requires ' ' !in text
    ensures StreamText(text) == [text + " "]
  {
    SplitNoSeparator(text, ' ');
  }

  /** The chunks of a text are its space-separated words, each followed by
      one space. */
  lemma StreamTextOfWords(words: seq<string>)
    requires |words| >= 1
    requires forall i :: 0 <= i < |words| ==> ' ' !in words[i]
    ensures |StreamText(Join(words, " "))| == |words|
    ensures forall i :: 0 <= i < |words| ==> StreamText(Join(words, " "))[i] == words[i] + " "
  {
    SplitJoin(words, ' ');
  }

  // ---------------------------------------------------------------------
  // Truncation
  // ---------------------------------------------------------------------

  /** End index of `s.slice(0, end)` for a string of length `len`: a
      negative `end` counts back from the end of the string. */
  function SliceEnd(len: nat, end: int): (k: nat)
    ensures k <= len
    ensures 0 <= end ==> k == if end < len then end else len
    ensures end < 0 ==> k == if len + end < 0 then 0 else len + end
  {
    if end < 0 then (if len + end < 0 then 0 else len + end)
    else if end > len then len
    else end
  }

  /** `truncate`: a text no longer than `maxLength` is returned unchanged;
      a longer one is cut to `slice(0, maxLength)`, trimmed at both ends,
      and followed by "...". */
  function Truncate(text: string, maxLength: int): (r: string)
    ensures |text| <= maxLength ==> r == text
    ensures |text| > maxLength ==> EndsWith(r, "...")
    ensures 0 <= maxLength ==> |r| <= maxLength + 3
  {
    if |text| <= maxLength then text
    else Trim(text[..SliceEnd(|text|, maxLength)]) + "..."
  }

  /** What precedes the ellipsis of a truncated text is one contiguous piece
      of its first `maxLength` characters, with only whitespace cut away on
      either side. */
  lemma TruncatedBody(text: string, maxLength: nat) returns (lo: nat, body: string)
    requires |text| > maxLength
    ensures Truncate(text, maxLength) == body + "..."
    ensures lo + |body| <= maxLength && body == text[lo..lo + |body|]
    ensures IsBlank(text[..lo]) && IsBlank(text[lo + |body|..maxLength])
    ensures body != [] ==> !IsSpace(body[0]) && !IsSpace(body[|body| - 1])
  {
    var prefix := text[..maxLength];
    assert Truncate(text, maxLength) == Trim(prefix) + "...";
    lo := TrimBounds(prefix);
    body := Trim(prefix);
    PrefixSlices(text, maxLength, lo, lo + |body|);
  }

  /** Slices of a prefix are slices of the whole. */
  lemma PrefixSlices(s: string, n: nat, a: nat, b: nat)
    requires a <= b <= n <= |s|
    ensures s[..n][a..b] == s[a..b]
    ensures s[..n][..a] == s[..a]
    ensures s[..n][b..] == s[b..n]
  {
  }

  /** A negative `maxLength` is passed on to `slice`, which then counts from
      the end of the text: what precedes the ellipsis is the trimmed prefix
      that stops `-maxLength` characters before the end, and nothing at all
      when the text is shorter than that. */
  lemma TruncateNegativeLength(text: string, maxLength: int) returns (lo: nat, body: string)
    requires maxLength < 0
    ensures |Truncate(text, maxLength)| <= (if |text| + maxLength < 0 then 0 else |text| + maxLength) + 3
    ensures |text| + maxLength < 0 ==> Truncate(text, maxLength) == "..."
    ensures |text| + maxLength >= 0 ==>
      && Truncate(text, maxLength) == body + "..."
      && lo + |body| <= |text| + maxLength && body == text[lo..lo + |body|]
      && IsBlank(text[..lo]) && IsBlank(text[lo + |body|..|text| + maxLength])
  {
    if |text| + maxLength >= 0 {
      lo, body := NegativeLengthBody(text, maxLength);
    } else {
      NegativeLengthEmpty(text, maxLength);
      lo, body := 0, "";
    }
  }

  /** A negative limit within the text's length keeps a trimmed piece of
      the text up to `-maxLength` characters before its end. */
  lemma NegativeLengthBody(text: string, maxLength: int) returns (lo: nat, body: string)
    requires maxLength < 0 && |text| + maxLength >= 0
    ensures Truncate(text, maxLength) == body + "..."
    ensures lo + |body| <= |text| + maxLength && body == text[lo..lo + |body|]
    ensures IsBlank(text[..lo]) && IsBlank(text[lo + |body|..|text| + maxLength])
  {
    var k := |text| + maxLength;
    var prefix := text[..k];
    assert SliceEnd(|text|, maxLength) == k;
    assert Truncate(text, maxLength) == Trim(prefix) + "...";
    lo := TrimBounds(prefix);
    body := Trim(prefix);
    PrefixSlices(text, k, lo, lo + |body|);
  }

  /** A negative limit beyond the text's length keeps nothing. */
  lemma NegativeLengthEmpty(text: string, maxLength: int)
    requires maxLength < 0 && |text| + maxLength < 0
    ensures Truncate(text, maxLength) == "..."
  {
    assert text[..SliceEnd(|text|, maxLength)] == "";
    assert Trim("") == "";
  }

  // ---------------------------------------------------------------------
  // Colours and badge classes
  // ---------------------------------------------------------------------

  /** `getJurisdictionColor`: a `#rrggbb` colour per jurisdiction. */
  function JurisdictionColor(j: Jurisdiction): (c: string)
    ensures |c| == 7 && c[0] == '#'
    ensures forall i :: 1 <= i < 7 ==> c[i] in "0123456789ABCDEF"
  {
    match j
    case CH => "#DC143C"
    case EU => "#003399"
    case UK => "#012169"
  }

  /** `getJurisdictionBadgeClasses`: background, text and border classes of
      one colour family per jurisdiction, in that order. */
  function JurisdictionBadgeClasses(j: Jurisdiction): (c: string)
    ensures StartsWith(c, "bg-")
    ensures Includes(c, " text-") && Includes(c, " border-")
  {
    match j
    case CH => BadgeClasses("red")
    case EU => BadgeClasses("blue")
    case UK => BadgeClasses("indigo")
  }

  /** The three classes of a badge in colour family `family`. */
  function BadgeClasses(family: string): (c: string)
    ensures StartsWith(c, "bg-")
    ensures Includes(c, " text-") && Includes(c, " border-")
  {
    var background := "bg-" + family + "-100";
    var text := family + "-700";
    var border := family + "-300";
    var c := background + " text-" + text + " border-" + border;
    assert c == background + " text-" + (text + " border-" + border);
    IncludesBetween(background, " text-", text + " border-" + border);
    IncludesBetween(background + " text-" + text, " border-", border);
    assert c[..3] == "bg-";
    c
  }

  /** Different jurisdictions get different colours and different badges. */
  lemma ColoursDistinct(a: Jurisdiction, b: Jurisdiction)
    requires a != b
    ensures JurisdictionColor(a) != JurisdictionColor(b)
    ensures JurisdictionBadgeClasses(a) != JurisdictionBadgeClasses(b)
  {
    var ca, cb := JurisdictionColor(a), JurisdictionColor(b);
    assert ca[1] != cb[1] || ca[2] != cb[2];
    assert |JurisdictionBadgeClasses(a)| != |JurisdictionBadgeClasses(b)|;
  }
}
